=== FILE: README.md ===
# PixooDiscordBot command core in Dafny

PixooDiscordBot is a Discord bot that drives a Divoom Pixoo 64x64 LED
display over HTTP. This project models the logic of its five slash commands
as pure functions:

- `/gif` fetches and decodes an animated GIF. It sends a reset, then a second
  reset, then up to 60 frames. Each frame is resized to 64x64, stripped to RGB,
  base64-encoded and POSTed as a `Draw/SendHttpGif` payload.
- `/text` word-wraps a message, draws it on a black 64x64 canvas and forces
  every pixel to pure black or white. It sends the result as a one-frame
  animation and remembers it as the last image.
- `/image` draws an attached image onto a 64x64 canvas and sends it the same
  way. The file also holds a grayscale filter, which is modelled but never
  applied.
- `/currentimage` decodes the remembered base64 text and rebuilds the 64x64
  picture, with every pixel opaque.
- `/countdown` validates minutes and seconds and POSTs `Tools/SetTimer`.

Four of the commands are functions from their inputs to an `Effect`: the
Discord reply, the POSTs sent to the device, and the new value of the shared
`lastImage` store. `/currentimage` sends nothing and stores nothing. It is a
function from the stored text to a `Shown`: its reply and the picture it
rebuilt. Several things are parameters rather than code:

- The network is a parameter: `net(k)` is the outcome of the `k`-th POST of a
  command.
- The GIF decoder, sharp's resize, node-canvas drawing and `measureText` are
  opaque functions.
- `Date.now()` and `Math.random()` are inputs.

Modules:

- `Raster`: RGBA and RGB byte layouts.
- `Base64`: RFC 4648 section 4 encoding, with a strict decoder.
- `PicData`: the `getRGBBase64` helper, shared by all three senders.
- `Device`: payloads, outcomes and the status reply.
- `WordWrap`: the greedy line breaker of `/text`.
- `Gif`, `Text`, `Image`, `CurrentImage`, `Countdown`: one module per command.
- `Session`: a command that stores a picture, followed by `/currentimage`.

Behaviour of the code worth knowing:

- In `/gif`, a failed reset inside `sendGifToPixoo` only stops the frame
  loop. The command still replies "GIF processing and sending completed.",
  and no failure count is reported.
- `/gif` sends two resets, not one: `sendResetCommand` and then the reset
  inside `sendGifToPixoo`. The first one's outcome is ignored.
- A frame whose resize throws is skipped, not fatal. `PicNum` still counts
  every frame visited, so the offsets sent can have gaps.
- `/gif` never writes `lastImage`.

## Model

| member | source | states |
|---|---|---|
| Raster.StripAlpha | commands/utility/gif.js:33-44 | the RGB buffer has 3/4 of the RGBA length, rounded down, and byte j is channel j%3 of pixel j/3 |
| Raster.StripAlphaPixels | commands/utility/text.js:17-24 | for whole pixels, RGB triple k is exactly the colour of RGBA pixel k |
| Raster.Recolor | commands/utility/text.js:119-125 | each pixel's R, G and B become one level computed from its colour; alpha is kept |
| Raster.Opaque | commands/utility/currentimage.js:33 | each pixel keeps its colour and gets alpha 255 |
| Base64.Encode | commands/utility/gif.js:43 | the text has 4 characters per started group of 3 bytes |
| Base64.Decode | commands/utility/currentimage.js:17 | whatever it accepts re-encodes to the same text |
| Base64.ValueOf | commands/utility/currentimage.js:17 | a recognised character is the letter of its value; the pad character has no value |
| Base64.DecodeEncode | commands/utility/currentimage.js:17 | decoding the encoding of any bytes gives those bytes back |
| Base64.DecodeIff | commands/utility/currentimage.js:17 | the decoder accepts a text and yields given bytes exactly when the text is their encoding |
| Base64.NoPadding | commands/utility/image.js:21 | an encoding contains '=' exactly when the byte count is not a multiple of 3 |
| Base64.RasterText | commands/utility/image.js:12-21 | 12288 RGB bytes encode to 16384 characters without padding, and decode back |
| PicData.RgbBase64Decodes | commands/utility/gif.js:33-44 | the text of any buffer decodes to its stripped RGB bytes; both lengths are given |
| PicData.FrameText | commands/utility/image.js:7-22 | a 64x64 raster gives 16384 characters without padding that decode to its RGB bytes |
| PicData.FramePixels | commands/utility/text.js:12-27 | a 64x64 raster gives 12288 RGB bytes carrying each pixel's colour in order |
| Device.StatusReply | commands/utility/text.js:196-207 | success exactly on status 200; the error text exactly on a transport error; otherwise the failure text followed by the status in decimal |
| Device.DecimalValue | commands/utility/text.js:199 | the decimal digits of a status denote that number, with no leading zero |
| Device.SingleFrame | commands/utility/text.js:166-174 | the one-frame payload is a Draw/SendHttpGif command whose offset lies within its frame count, 64 wide, carrying the given id and data; Gif.OneFrameGif ties it to the /gif frame loop |
| Device.Decimal | commands/utility/text.js:199 | a status prints as a non-empty string of decimal digits; Device.DecimalValue reads it back |
| Gif.ProcessGif | commands/utility/gif.js:7-31 | the frames come back exactly when the fetch answered ok and decoding gave at least one frame; each failure has its own error |
| Gif.FrameData | commands/utility/gif.js:126-144 | a frame has text to send exactly when its resize succeeded |
| Gif.Resized | commands/utility/gif.js:125-181 | every listed offset is a visited frame that resized |
| Gif.ResizedIncreasing | commands/utility/gif.js:125-181 | the offsets strictly increase, so frames go out once each and in animation order |
| Gif.ResizedComplete | commands/utility/gif.js:125-181 | every visited frame whose resize succeeded is listed |
| Gif.SentOffsets | commands/utility/gif.js:125-144 | every frame sent is among the first min(frames, 60) and resized successfully |
| Gif.ResizedAll | commands/utility/gif.js:125-181 | when every frame resizes, the offsets are 0, 1, 2, ... with none missing |
| Gif.SendFrames | commands/utility/gif.js:125-182 | one POST per resized frame, in order, each with that frame's offset and data and the same count, id and speed |
| Gif.SendGifToPixoo | commands/utility/gif.js:105-183 | a reset POST first; if it is not 2xx nothing else; otherwise one SendHttpGif per resized frame among the first 60, with PicNum min(frames, 60), PicWidth 64, the frame's own offset and data, the given id and speed |
| Gif.OneFrameGif | commands/utility/gif.js:125-155 | for a one-frame GIF at speed 100 with a 2xx reset and a frame that resizes, the frame POST is exactly the single-frame payload /text and /image send |
| Gif.AllFramesSent | commands/utility/gif.js:125-155 | with a successful reset and no resize failure, frame i is POST i+1 with offset i |
| Gif.FrameOutcomesIgnored | commands/utility/gif.js:174-181 | the payloads sent do not depend on how the frame POSTs ended |
| Gif.PicId | commands/utility/gif.js:210 | the animation id lies in [0, 10000) |
| Gif.Execute | commands/utility/gif.js:193-225 | no attachment or a processing error gives its reply and no POST; otherwise a reset and then sendGifToPixoo with speed 100, and the completion reply whatever the device answered; lastImage never changes |
| Gif.FirstResetNotFatal | commands/utility/gif.js:213-217 | when the second reset succeeds, a POST goes out for every resized frame, all with the same count, an id below 10000 and speed 100, however the first reset ended |
| WordWrap.Split | commands/utility/text.js:79 | at least one word, no word contains a space, and joining with single spaces gives the text back |
| WordWrap.IndexOfSpace | commands/utility/text.js:79 | the position found is the first space |
| WordWrap.FirstWord | commands/utility/text.js:79 | the first word is a space-free prefix of the text that ends at the first space or at the end |
| WordWrap.SplitJoin | commands/utility/text.js:79 | splitting the space-join of space-free words gives the words back |
| WordWrap.Step | commands/utility/text.js:84-93 | one word never changes a finished line and closes at most one; a non-empty word leaves a non-empty current line; for a word without spaces, a current line holding a space measures within the limit |
| WordWrap.Flush | commands/utility/text.js:96-98 | the final push keeps the finished lines, adds at most the pending line, never loses a non-empty one and never adds an empty one |
| WordWrap.Wrap | commands/utility/text.js:83-98 | the loop never revises a finished line, and makes at most one line per word plus the pending one |
| WordWrap.WrapText | commands/utility/text.js:78-101 | every line is non-empty, and a line holding a space measures within the limit |
| WordWrap.WrapKeepsLines | commands/utility/text.js:83-98 | the word loop keeps every finished line non-empty and within the limit when it has a space |
| WordWrap.WrapRegroups | commands/utility/text.js:83-98 | when no word is empty and the current line is not empty, the loop only regroups words: joining the lines gives the pending lines, current line and words joined |
| WordWrap.WrapJoin | commands/utility/text.js:78-101 | when no word is empty, joining the lines with spaces gives the original text |
| WordWrap.AppendGreedy | commands/utility/text.js:86-90 | pushing a line that did not fit after the previous one keeps the lines greedy |
| WordWrap.WrapKeepsGreedy | commands/utility/text.js:83-98 | when no word is empty, for any measure, the word loop keeps every line break forced: the next line's first word did not fit |
| WordWrap.WrapIsGreedy | commands/utility/text.js:78-101 | when no word is empty, for any measure, each line of the result followed by the next line's first word would exceed the width |
| WordWrap.StepKeepsGreedy | commands/utility/text.js:84-93 | one step keeps every break forced, the empty word included, when the last line is no narrower with the word after its space |
| WordWrap.WrapKeepsGreedyMonotone | commands/utility/text.js:83-98 | with widths that never shrink when text is appended, the word loop keeps every break forced, empty words included |
| WordWrap.WrapIsGreedyMonotone | commands/utility/text.js:78-101 | for every text, with widths that never shrink when text is appended, each line of the result followed by the next line's first word would exceed the width |
| Text.DrawLines | commands/utility/text.js:106-113 | line k is drawn at x 0, k+1 line heights below the start |
| Text.Layout | commands/utility/text.js:103-113 | one non-empty wrapped line per fillText, at x 0 and y 10(k+1) |
| Text.BlackOrWhite | commands/utility/text.js:120-121 | the level is 0 exactly when R+G+B < 384, and otherwise 255 |
| Text.Threshold | commands/utility/text.js:115-127 | each pixel becomes pure black or pure white by its colour sum, keeping alpha |
| Text.ThresholdFixes | commands/utility/text.js:119-125 | the result is black and white, and a black-and-white canvas is unchanged |
| Text.ThresholdIdempotent | commands/utility/text.js:119-125 | thresholding twice equals thresholding once |
| Text.DrawTextOnCanvas | commands/utility/text.js:65-130 | the drawn canvas holds only pure black and pure white pixels |
| Text.Execute | commands/utility/text.js:140-216 | an empty message sends nothing; otherwise a reset, then one frame with the time as id and the canvas text as data, which is also stored; the reply is the success text exactly on status 200, the failure text plus the status in decimal on any other status, and the processing-failure text exactly on a transport error |
| Text.SentPicture | commands/utility/text.js:155-174 | the stored and sent text is 16384 unpadded characters that decode to 12288 bytes, every pixel black or white |
| Image.ClampToByte | commands/utility/image.js:61-63 | a stored value is clamped to [0, 255] and within one half of the real value |
| Image.Average | commands/utility/image.js:60-63 | the stored mean of R, G and B is (R+G+B+1)/3, the mean rounded to nearest |
| Image.ApplyGrayscale | commands/utility/image.js:54-67 | each pixel's R, G and B become their rounded mean; alpha is kept |
| Image.GrayscaleFixes | commands/utility/image.js:59-64 | the result is gray, and a gray canvas is unchanged |
| Image.GrayscaleIdempotent | commands/utility/image.js:59-64 | applying the filter twice equals applying it once |
| Image.Execute | commands/utility/image.js:111-204 | no attachment sends nothing; a load failure sends only the reset; otherwise a reset and one frame carrying the canvas text, which is also stored; the reply is the success text exactly on status 200, the failure text plus the status in decimal on any other status, and the processing-failure text exactly on a transport error |
| Image.SentPicture | commands/utility/image.js:145-161 | the stored and sent text is 16384 unpadded characters that decode to every canvas pixel's colour |
| CurrentImage.Unpack | commands/utility/currentimage.js:24-34 | pixel k takes bytes 3k, 3k+1, 3k+2 (0 past the end) and alpha 255 |
| CurrentImage.UnpackStrip | commands/utility/currentimage.js:28-34 | rebuilding from a raster's RGB bytes gives the raster back, made opaque |
| CurrentImage.StripUnpack | commands/utility/currentimage.js:28-34 | stripping a picture rebuilt from 12288 bytes gives those bytes back |
| CurrentImage.Execute | commands/utility/currentimage.js:11-61 | nothing stored, or an empty store, replies that nothing was sent; otherwise the latest-picture reply, and canonical text of non-empty bytes shows those bytes rebuilt |
| Countdown.Execute | commands/utility/countdown.js:51-68 | nothing is sent exactly when minutes < 0, seconds < 0 or seconds > 59, with the invalid-input reply; otherwise one SetTimer with status 1 and the confirmation; lastImage never changes |
| Countdown.Confirmation | commands/utility/countdown.js:63 | the confirmation starts "Timer set for " and never equals the invalid-input reply |
| Countdown.ConfirmationNamesTime | commands/utility/countdown.js:63 | the confirmation spells the minutes and seconds in decimal between its fixed words |
| Session.ImageShownBack | commands/utility/currentimage.js:13-34 | after /image stores a canvas, /currentimage shows that canvas made opaque |
| Session.TextShownBack | commands/utility/currentimage.js:13-34 | after /text stores a drawn message, /currentimage shows that black-and-white canvas made opaque |

## Left out

- HTTP transport, JSON serialisation and Discord calls are not modelled. A POST is its payload plus an outcome drawn from the network parameter. `deferReply`, `reply` and `editReply` are assumed to succeed.
- Ordering of the fire-and-forget `resetgifid` request in `/text` and `/image` is not modelled. Its outcome is never read, so the model records it as sent first.
- `sendResetCommand` in gif.js only logs, so only the POST it makes is modelled.
- GIF decoding (gifuct-js), sharp's resize, node-canvas image loading, drawing, font rendering, the brightness/contrast filter and `measureText` are opaque parameters. Frames are not composited, because the code sends each frame's raw patch.
- `resizeFrameTo64x64` in gif.js is never called, so it is not modelled.
- `applyDithering` in image.js is never called and is not modelled. `applyGrayscale` is modelled but is not applied by `/image`, just as in the code.
- Base64.Decode is strict. It accepts only canonical text, while Node's `Buffer.from(s, 'base64')` also decodes non-canonical text leniently. CurrentImage.Execute takes that lenient decoding as a parameter. The commands only ever store canonical text.
- CurrentImage.Execute: the PNG file, the 256x256 upscaling and the attachment are not modelled. Its result is the reply and the rebuilt 64x64 picture.
- Image.ClampToByte: the contract bounds the rounding error by one half but does not state the ties-to-even rule the body follows. Image.Average pins the exact value wherever the filter uses it.
- CurrentImage.Execute: for stored text that is not canonical base64, the contract only says a picture is shown, because what Node decodes from such text is a parameter.
- `Date.now()` and `Math.random()` are inputs. Gif.PicId is given the random number.
- The "Failed to set the timer." branch of countdown.js cannot be reached, because `setTimer` catches every error. The "Failed to process the text/image." replies from a synchronous exception in the canvas code are not modelled.
- pixoobot.js only dispatches commands, and imageBuffer.js is not part of this model. The shared store is the `lastImage` value passed through each command.
- WordWrap.WrapIsGreedy: for an arbitrary width function it assumes no word is empty. With repeated spaces, an empty word can close a line whose successor starts with a word that would have fit. WordWrap.WrapIsGreedyMonotone covers every text, including repeated spaces, for widths that never shrink when text is appended, as a font's widths do.
- WordWrap.WrapRegroups: promises nothing when a word is empty. With repeated spaces, the space before an empty word is lost when the line it would end is pushed, so joining the lines no longer gives the text back. WordWrap.WrapJoin states the round trip for texts with no empty word.

=== FILE: base64.dfy ===
/** Standard base64 (section 4 of RFC 4648), as produced by Node's
    `buffer.toString('base64')` and read back by `Buffer.from(s, 'base64')`.
    Every 3 input bytes become 4 characters of the 64-letter alphabet; a
    final group of 1 or 2 bytes is padded with '=' to 4 characters. */
module Base64 {
  import opened Wrappers
  import opened Raster

  /** A 6-bit value: the index of one alphabet letter. */
  type Sextet = v: int | 0 <= v < 64

  const Pad: char := '='

  /** The letter for a 6-bit value (Table 1 of RFC 4648). */
  function Letter(v: Sextet): (c: char)
    ensures c != Pad
  {
    if v < 26 then (65 + v) as char          // 'A'..'Z'
    else if v < 52 then (97 + v - 26) as char  // 'a'..'z'
    else if v < 62 then (48 + v - 52) as char  // '0'..'9'
    else if v == 62 then '+'
    else '/'
  }

  /** The 6-bit value of an alphabet letter; None for any other character,
      the pad included. */
  function ValueOf(c: char): (r: Option<Sextet>)
    ensures r.Some? ==> Letter(r.value) == c
    ensures c == Pad ==> r.None?
  {
    if 'A' <= c <= 'Z' then Some(c as int - 65)
    else if 'a' <= c <= 'z' then Some(c as int - 97 + 26)
    else if '0' <= c <= '9' then Some(c as int - 48 + 52)
    else if c == '+' then Some(62)
    else if c == '/' then Some(63)
    else None
  }

  /** Letters and values are in one-to-one correspondence. */
  lemma ValueOfLetter(v: Sextet)
    ensures ValueOf(Letter(v)) == Some(v)
  {
  }

  /** The four letters of a complete 3-byte group. */
  function EncodeGroup(b0: Byte, b1: Byte, b2: Byte): string {
    [Letter(b0 / 4), Letter(b0 % 4 * 16 + b1 / 16), Letter(b1 % 16 * 4 + b2 / 64), Letter(b2 % 64)]
  }

  /** The three bytes carried by four letters. */
  function DecodeGroup(c0: Sextet, c1: Sextet, c2: Sextet, c3: Sextet): seq<Byte> {
    [c0 * 4 + c1 / 16, c1 % 16 * 16 + c2 / 4, c2 % 4 * 64 + c3]
  }

  function Encode(bytes: seq<Byte>): (s: string)
    ensures |s| == 4 * ((|bytes| + 2) / 3)
    decreases |bytes|
  {
    if |bytes| == 0 then ""
    else if |bytes| == 1 then
      [Letter(bytes[0] / 4), Letter(bytes[0] % 4 * 16), Pad, Pad]
    else if |bytes| == 2 then
      [Letter(bytes[0] / 4), Letter(bytes[0] % 4 * 16 + bytes[1] / 16), Letter(bytes[1] % 16 * 4), Pad]
    else
      EncodeGroup(bytes[0], bytes[1], bytes[2]) + Encode(bytes[3..])
  }

  /** Four letters without padding: the three bytes they carry. */
  function DecodeGroupOf(s: string): (r: Option<seq<Byte>>)
    requires |s| == 4
    ensures r.Some? ==> |r.value| == 3 && EncodeGroup(r.value[0], r.value[1], r.value[2]) == s
  {
    var v0, v1, v2, v3 := ValueOf(s[0]), ValueOf(s[1]), ValueOf(s[2]), ValueOf(s[3]);
    if v0.None? || v1.None? || v2.None? || v3.None? then None
    else
      GroupRoundTrip(v0.value, v1.value, v2.value, v3.value);
      Some(DecodeGroup(v0.value, v1.value, v2.value, v3.value))
  }

  /** A final group carrying one byte: two letters and two pads. */
  function DecodeOne(c0: Sextet, c1: Sextet): (r: Option<seq<Byte>>)
    ensures r.Some? ==> Encode(r.value) == [Letter(c0), Letter(c1), Pad, Pad]
  {
    if c1 % 16 == 0 then
      Place4(c0, c1 / 16);
      Some([c0 * 4 + c1 / 16])
    else None
  }

  /** A final group carrying two bytes: three letters and one pad. */
  function DecodeTwo(c0: Sextet, c1: Sextet, c2: Sextet): (r: Option<seq<Byte>>)
    ensures r.Some? ==> Encode(r.value) == [Letter(c0), Letter(c1), Letter(c2), Pad]
  {
    if c2 % 4 == 0 then
      Place4(c0, c1 / 16);
      Place16(c1 % 16, c2 / 4);
      Some([c0 * 4 + c1 / 16, c1 % 16 * 16 + c2 / 4])
    else None
  }

  /** The final four characters: a complete group, or one or two bytes
      followed by padding whose unused low bits are zero. */
  function DecodeLast(s: string): (r: Option<seq<Byte>>)
    requires |s| == 4
    ensures r.Some? ==> Encode(r.value) == s
  {
    var v0, v1, v2 := ValueOf(s[0]), ValueOf(s[1]), ValueOf(s[2]);
    if s[2] == Pad && s[3] == Pad then
      if v0.Some? && v1.Some? then DecodeOne(v0.value, v1.value) else None
    else if s[3] == Pad then
      if v0.Some? && v1.Some? && v2.Some? then DecodeTwo(v0.value, v1.value, v2.value) else None
    else
      match DecodeGroupOf(s)
      case None => None
      case Some(g) =>
        assert g == [g[0], g[1], g[2]];
        Some(g)
  }

  /** A strict decoder: the input must be a whole number of 4-letter groups,
      '=' may appear only as the last one or two characters, and the unused
      low bits before the padding must be zero (section 3.5 of RFC 4648).
      Whatever it accepts is exactly the encoding of what it returns. */
  function Decode(s: string): (r: Option<seq<Byte>>)
    ensures r.Some? ==> Encode(r.value) == s
    decreases |s|
  {
    if |s| == 0 then Some([])
    else if |s| < 4 then None
    else if |s| == 4 then DecodeLast(s)
    else
      match DecodeGroupOf(s[..4])
      case None => None
      case Some(group) =>
        match Decode(s[4..])
        case None => None
        case Some(rest) =>
          assert s == s[..4] + s[4..];
          assert (group + rest)[3..] == rest;
          Some(group + rest)
  }

  /** Splitting `hi * m + lo` (with `lo < m`) by `m` gives back `hi` and `lo`. */
  lemma Place4(hi: int, lo: int)
    requires 0 <= lo < 4
    ensures (hi * 4 + lo) / 4 == hi && (hi * 4 + lo) % 4 == lo
  {
  }

  lemma Place16(hi: int, lo: int)
    requires 0 <= lo < 16
    ensures (hi * 16 + lo) / 16 == hi && (hi * 16 + lo) % 16 == lo
  {
  }

  lemma Place64(hi: int, lo: int)
    requires 0 <= lo < 64
    ensures (hi * 64 + lo) / 64 == hi && (hi * 64 + lo) % 64 == lo
  {
  }

  /** Four letters decode to bytes that encode back to the same letters. */
  lemma GroupRoundTrip(c0: Sextet, c1: Sextet, c2: Sextet, c3: Sextet)
    ensures var g := DecodeGroup(c0, c1, c2, c3);
            EncodeGroup(g[0], g[1], g[2]) == [Letter(c0), Letter(c1), Letter(c2), Letter(c3)]
  {
    Place4(c0, c1 / 16);
    Place16(c1 % 16, c2 / 4);
    Place64(c2 % 4, c3);
  }

  /** Three bytes encode to letters that decode back to the same bytes. */
  lemma BytesRoundTrip(b0: Byte, b1: Byte, b2: Byte)
    ensures DecodeGroup(b0 / 4, b0 % 4 * 16 + b1 / 16, b1 % 16 * 4 + b2 / 64, b2 % 64) == [b0, b1, b2]
  {
    Place16(b0 % 4, b1 / 16);
    Place4(b1 % 16, b2 / 64);
  }

  /** A single trailing byte survives its padded group. */
  lemma OneByteRoundTrip(b0: Byte)
    ensures DecodeLast(Encode([b0])) == Some([b0])
  {
    assert Encode([b0]) == [Letter(b0 / 4), Letter(b0 % 4 * 16), Pad, Pad];
    ValueOfLetter(b0 / 4);
    ValueOfLetter(b0 % 4 * 16);
    Place16(b0 % 4, 0);
  }

  /** Two trailing bytes survive their padded group. */
  lemma TwoBytesRoundTrip(b0: Byte, b1: Byte)
    ensures DecodeLast(Encode([b0, b1])) == Some([b0, b1])
  {
    assert Encode([b0, b1]) == [Letter(b0 / 4), Letter(b0 % 4 * 16 + b1 / 16), Letter(b1 % 16 * 4), Pad];
    ValueOfLetter(b0 / 4);
    ValueOfLetter(b0 % 4 * 16 + b1 / 16);
    ValueOfLetter(b1 % 16 * 4);
    Place16(b0 % 4, b1 / 16);
    Place4(b1 % 16, 0);
  }

  /** A complete group decodes to its three bytes. */
  lemma GroupOfRoundTrip(b0: Byte, b1: Byte, b2: Byte)
    ensures DecodeGroupOf(EncodeGroup(b0, b1, b2)) == Some([b0, b1, b2])
  {
    ValueOfLetter(b0 / 4);
    ValueOfLetter(b0 % 4 * 16 + b1 / 16);
    ValueOfLetter(b1 % 16 * 4 + b2 / 64);
    ValueOfLetter(b2 % 64);
    BytesRoundTrip(b0, b1, b2);
  }

  /** A final complete group decodes to its three bytes. */
  lemma LastGroupRoundTrip(b0: Byte, b1: Byte, b2: Byte)
    ensures DecodeLast(EncodeGroup(b0, b1, b2)) == Some([b0, b1, b2])
  {
    GroupOfRoundTrip(b0, b1, b2);
  }

  /** A concatenation splits back into its two parts. */
  lemma Halves<T>(a: seq<T>, b: seq<T>)
    ensures (a + b)[..|a|] == a && (a + b)[|a|..] == b
  {
  }

  /** A sequence of three or more elements is its first three followed by
      the rest. */
  lemma Regroup<T>(xs: seq<T>)
    requires |xs| >= 3
    ensures xs == [xs[0], xs[1], xs[2]] + xs[3..]
  {
  }

  /** The encoding of a complete group followed by more bytes is the
      group's letters followed by the encoding of the rest. */
  lemma EncodeSplit(b0: Byte, b1: Byte, b2: Byte, rest: seq<Byte>)
    ensures Encode([b0, b1, b2] + rest) == EncodeGroup(b0, b1, b2) + Encode(rest)
  {
    assert ([b0, b1, b2] + rest)[3..] == rest;
  }

  /** Some bytes encode to at least one group of letters. */
  lemma EncodeNonEmpty(bytes: seq<Byte>)
    requires |bytes| > 0
    ensures |Encode(bytes)| >= 4
  {
    assert (|bytes| + 2) / 3 >= 1;
  }

  /** One step of the decoder on a group followed by more text. */
  lemma DecodeStep(head: string, tail: string, g: seq<Byte>, rest: seq<Byte>)
    requires |head| == 4 && |tail| > 0
    requires DecodeGroupOf(head) == Some(g)
    requires Decode(tail) == Some(rest)
    ensures Decode(head + tail) == Some(g + rest)
  {
    Halves(head, tail);
  }

  /** A complete group in front of a non-empty decodable tail decodes to its
      bytes in front of the tail's. */
  lemma DecodeFront(b0: Byte, b1: Byte, b2: Byte, rest: seq<Byte>)
    requires |rest| > 0
    requires Decode(Encode(rest)) == Some(rest)
    ensures Decode(Encode([b0, b1, b2] + rest)) == Some([b0, b1, b2] + rest)
  {
    var head := EncodeGroup(b0, b1, b2);
    var tail := Encode(rest);
    EncodeNonEmpty(rest);
    GroupOfRoundTrip(b0, b1, b2);
    DecodeStep(head, tail, [b0, b1, b2], rest);
    EncodeSplit(b0, b1, b2, rest);
  }

  /** Decoding undoes encoding, for every byte sequence. */
  lemma {:induction false} DecodeEncode(bytes: seq<Byte>)
    ensures Decode(Encode(bytes)) == Some(bytes)
    decreases |bytes|
  {
    if |bytes| == 1 {
      OneByteRoundTrip(bytes[0]);
      assert bytes == [bytes[0]];
    } else if |bytes| == 2 {
      TwoBytesRoundTrip(bytes[0], bytes[1]);
      assert bytes == [bytes[0], bytes[1]];
    } else if |bytes| == 3 {
      LastGroupRoundTrip(bytes[0], bytes[1], bytes[2]);
      assert bytes == [bytes[0], bytes[1], bytes[2]];
      assert Encode(bytes) == EncodeGroup(bytes[0], bytes[1], bytes[2]) + Encode([]);
    } else if |bytes| > 3 {
      DecodeEncode(bytes[3..]);
      DecodeFront(bytes[0], bytes[1], bytes[2], bytes[3..]);
      Regroup(bytes);
    }
  }

  /** The decoder accepts a string exactly when it is the encoding of the
      bytes it returns. */
  lemma DecodeIff(s: string, bytes: seq<Byte>)
    ensures Decode(s) == Some(bytes) <==> s == Encode(bytes)
  {
    if s == Encode(bytes) {
      DecodeEncode(bytes);
    }
  }

  /** Padding appears exactly when the input length is not a multiple of 3. */
  lemma {:induction false} NoPadding(bytes: seq<Byte>)
    ensures Pad in Encode(bytes) <==> |bytes| % 3 != 0
    decreases |bytes|
  {
    if |bytes| >= 3 {
      var rest := bytes[3..];
      assert |bytes| % 3 == |rest| % 3;
      NoPadding(rest);
      var g := EncodeGroup(bytes[0], bytes[1], bytes[2]);
      assert Pad !in g;
      Regroup(bytes);
      EncodeSplit(bytes[0], bytes[1], bytes[2], rest);
      assert Encode(bytes) == g + Encode(rest);
    } else if |bytes| > 0 {
      assert Encode(bytes)[3] == Pad;
    }
  }


  /** The RGB bytes of a 64x64 raster: 16384 characters, no padding, and
      decoding returns them. */
  lemma RasterText(rgb: seq<Byte>)
    requires |rgb| == 12288
    ensures |Encode(rgb)| == 16384
    ensures Pad !in Encode(rgb)
    ensures Decode(Encode(rgb)) == Some(rgb)
  {
    assert |rgb| % 3 == 0 && (|rgb| + 2) / 3 == 4096;
    NoPadding(rgb);
    DecodeEncode(rgb);
  }
}

=== FILE: countdown.dfy ===
/** The `/countdown` command (commands/utility/countdown.js): validate the
    minutes and seconds and start the device's countdown timer. */
module Countdown {
  import opened Wrappers
  import opened Device

  /** The refusal, as two literals: the verifier reads the characters of a
      string literal only when it is short, and the confirmation is told
      apart from this reply by its first character. */
  const Invalid := "Invalid time input." + " Please enter valid minutes and seconds."

  /** The reply once the timer command has been sent: never the refusal,
      and it announces the timer. */
  function Confirmation(minutes: nat, seconds: nat): (c: string)
    ensures c != Invalid
    ensures "Timer set for " <= c
  {
    var c := "Timer set for " + Decimal(minutes) + " minutes and " + Decimal(seconds) + " seconds.";
    assert c[0] == 'T' && Invalid[0] == 'I';
    c
  }

  /** `execute` for `/countdown`: negative minutes, negative seconds or
      seconds above 59 are refused before anything is sent; any other pair
      (minutes have no upper bound) is POSTed as a started timer. `setTimer`
      catches every failure itself, so the confirmation is the reply
      whatever the POST's outcome. The command never touches the stored
      image. */
  function Execute(minutes: int, seconds: int, net: Network, lastImage: Option<string>): (e: Effect)
    ensures e.lastImage == lastImage
    ensures e.posts == [] <==> minutes < 0 || seconds < 0 || seconds > 59
    ensures e.posts == [] ==> e.reply == Invalid
    ensures e.posts != [] ==>
              && minutes >= 0 && 0 <= seconds <= 59
              && e.posts == [Post(SetTimer(minutes, seconds, 1), net(0))]
              && e.posts[0].payload.Command() == "Tools/SetTimer"
              && e.reply == Confirmation(minutes, seconds)
  {
    if minutes < 0 || seconds < 0 || seconds > 59 then Effect(Invalid, [], lastImage)
    else Effect(Confirmation(minutes, seconds), [Post(SetTimer(minutes, seconds, 1), net(0))], lastImage)
  }

  /** The confirmation names the time that was set: its two numbers read
      back as the minutes and the seconds. */
  lemma ConfirmationNamesTime(minutes: nat, seconds: nat)
    ensures var prefix := "Timer set for ";
            var m := Decimal(minutes);
            var rest := " minutes and " + Decimal(seconds) + " seconds.";
            && Confirmation(minutes, seconds) == prefix + m + rest
            && DigitsValue(m) == minutes
            && DigitsValue(Decimal(seconds)) == seconds
  {
    DecimalValue(minutes);
    DecimalValue(seconds);
  }
}

=== FILE: currentimage.dfy ===
/** The `/currentimage` command (commands/utility/currentimage.js): decode
    the stored base64 text and rebuild a 64x64 RGBA picture from its RGB
    bytes, every pixel fully opaque. */
module CurrentImage {
  import opened Wrappers
  import opened Raster
  import Base64

  /** Byte `i` of a Node `Buffer`, read the way the rebuild loop reads it:
      past the end the read gives `undefined`, which a `Uint8ClampedArray`
      stores as 0. */
  function ByteOr0(bytes: seq<Byte>, i: nat): Byte {
    if i < |bytes| then bytes[i] else 0
  }

  /** The rebuild loop: pixel `k` takes bytes `3k`, `3k + 1` and `3k + 2`
      as R, G and B, and alpha 255. Bytes after the first 12288 are never
      read. */
  function Unpack(bytes: seq<Byte>): (rgba: Rgba64)
    ensures forall k :: 0 <= k < PixelCount ==>
              PixelAt(rgba, k) == Pixel(ByteOr0(bytes, 3 * k), ByteOr0(bytes, 3 * k + 1),
                                        ByteOr0(bytes, 3 * k + 2), 255)
  {
    var rgba: Rgba64 := seq(RgbaLen, i requires 0 <= i < RgbaLen => UnpackByte(bytes, i));
    UnpackPixels(bytes, rgba);
    rgba
  }

  /** Byte `i` of the rebuilt picture. */
  function UnpackByte(bytes: seq<Byte>, i: nat): Byte {
    if i % 4 == 3 then 255 else ByteOr0(bytes, 3 * (i / 4) + i % 4)
  }

  /** A raster made of the rebuilt bytes holds the rebuilt pixels. */
  lemma UnpackPixels(bytes: seq<Byte>, rgba: Rgba64)
    requires forall i :: 0 <= i < RgbaLen ==> rgba[i] == UnpackByte(bytes, i)
    ensures forall k :: 0 <= k < PixelCount ==>
              PixelAt(rgba, k) == Pixel(ByteOr0(bytes, 3 * k), ByteOr0(bytes, 3 * k + 1),
                                        ByteOr0(bytes, 3 * k + 2), 255)
  {
    forall k | 0 <= k < PixelCount
      ensures PixelAt(rgba, k) == Pixel(ByteOr0(bytes, 3 * k), ByteOr0(bytes, 3 * k + 1),
                                        ByteOr0(bytes, 3 * k + 2), 255)
    {
      UnpackPixel(bytes, k);
    }
  }

  /** The four bytes of rebuilt pixel `k`. */
  lemma UnpackPixel(bytes: seq<Byte>, k: nat)
    ensures UnpackByte(bytes, 4 * k) == ByteOr0(bytes, 3 * k)
    ensures UnpackByte(bytes, 4 * k + 1) == ByteOr0(bytes, 3 * k + 1)
    ensures UnpackByte(bytes, 4 * k + 2) == ByteOr0(bytes, 3 * k + 2)
    ensures UnpackByte(bytes, 4 * k + 3) == 255
  {
    ChannelIndex(k);
  }

  /** Rebuilding from the stripped bytes of a raster gives the raster back
      with every pixel made opaque. */
  lemma UnpackStrip(rgba: Rgba64)
    ensures Unpack(StripAlpha(rgba)) == Opaque(rgba)
  {
    var rgb := StripAlpha(rgba);
    StripAlphaPixels(rgba);
    var out := Unpack(rgb);
    forall k | 0 <= k < PixelCount
      ensures PixelAt(out, k) == PixelAt(Opaque(rgba), k)
    {
      assert RgbAt(rgb, k) == ColourOf(PixelAt(rgba, k));
    }
    SamePixels(out, Opaque(rgba));
  }

  /** Stripping a rebuilt picture gives back the 12288 bytes it was built
      from. */
  lemma StripUnpack(rgb: seq<Byte>)
    requires |rgb| == RgbLen
    ensures StripAlpha(Unpack(rgb)) == rgb
  {
    var rgba := Unpack(rgb);
    var back := StripAlpha(rgba);
    StripAlphaPixels(rgba);
    forall k | 0 <= k < PixelCount
      ensures RgbAt(back, k) == RgbAt(rgb, k)
    {
      assert PixelAt(rgba, k) == Pixel(rgb[3 * k], rgb[3 * k + 1], rgb[3 * k + 2], 255);
    }
    SameColours(back, rgb);
  }

  /** What the command shows: its reply, and the 64x64 picture it rebuilt
      (None when nothing was stored). */
  datatype Shown = Shown(reply: string, picture: Option<Rgba64>)

  const Nothing := "No image or GIF has been sent to the Pixoo device yet."
  const Latest := "Here is the latest image or GIF frame sent to the Pixoo device:"

  /** Node's `Buffer.from(s, 'base64')` on text that is not canonical
      base64, which it decodes leniently rather than rejecting. */
  type Lenient = string -> seq<Byte>

  /** `execute` for `/currentimage`: no picture while the store is unset or
      empty; otherwise the stored text is decoded and rebuilt. */
  function Execute(lastImage: Option<string>, lenient: Lenient): (v: Shown)
    ensures lastImage.None? || lastImage == Some("") ==> v == Shown(Nothing, None)
    ensures lastImage.Some? && lastImage.value != "" ==> v.reply == Latest && v.picture.Some?
    ensures forall bytes :: lastImage == Some(Base64.Encode(bytes)) && bytes != [] ==>
              v.picture == Some(Unpack(bytes))
  {
    if lastImage.None? || lastImage.value == "" then Shown(Nothing, None)
    else
      var bytes := match Base64.Decode(lastImage.value)
                   case Some(b) => b
                   case None => lenient(lastImage.value);
      assert forall b :: lastImage.value == Base64.Encode(b) ==> bytes == b by {
        forall b | lastImage.value == Base64.Encode(b) {
          Base64.DecodeEncode(b);
        }
      }
      Shown(Latest, Some(Unpack(bytes)))
  }
}

=== FILE: device.dfy ===
/** The HTTP side of the bot: the JSON commands POSTed to the display at
    `http://<PIXOO_IP>:80/post`, the outcome of each POST, and what one slash
    command leaves behind. The transport itself is not modelled: the outcome
    of the n-th POST a command issues is read from an oracle. */
module Device {
  import opened Wrappers
  import opened Raster

  /** How one POST ended: the device answered with a status code, or the
      request (or reading its response) threw. */
  datatype Outcome = Responded(status: nat) | TransportError {

    /** node-fetch's `res.ok`: a 2xx status. */
    predicate IsOk() {
      Responded? && 200 <= status <= 299
    }
  }

  /** The outcome of the n-th POST issued by one command (n counts from 0). */
  type Network = nat -> Outcome

  /** The JSON bodies the bot sends. */
  datatype Payload =
    | ResetHttpGifId
    | SendHttpGif(picNum: int, picWidth: int, picOffset: int, picId: int, picSpeed: int, picData: string)
    | SetTimer(minute: int, second: int, status: int)
  {

    /** The `Command` field of the body. */
    function Command(): string {
      match this
      case ResetHttpGifId => "Draw/ResetHttpGifId"
      case SendHttpGif(_, _, _, _, _, _) => "Draw/SendHttpGif"
      case SetTimer(_, _, _) => "Tools/SetTimer"
    }
  }

  /** One POST: what was sent and how it ended. */
  datatype Post = Post(payload: Payload, outcome: Outcome)

  /** What one slash command leaves behind: its reply to the user, the POSTs
      it issued in order, and the value of the shared `imageBuffer.lastImage`
      afterwards (None while nothing has been stored). */
  datatype Effect = Effect(reply: string, posts: seq<Post>, lastImage: Option<string>)

  /** The single-frame animation the text and image commands send: frame
      0 of 1, 64 pixels wide, 100 ms per frame. */
  function SingleFrame(picId: int, picData: string): (p: Payload)
    ensures p.Command() == "Draw/SendHttpGif"
    ensures 0 <= p.picOffset < p.picNum && p.picWidth == Side
    ensures p.picId == picId && p.picData == picData
  {
    SendHttpGif(1, Side, 0, picId, 100, picData)
  }

  /** The reply of the text and image commands once their POST ends: the
      success message for status 200 exactly (not any 2xx), the failure
      message with the status code for any other status, and the error
      message when the request itself failed. */
  function StatusReply(outcome: Outcome, success: string, failure: string, error: string): (reply: string)
    requires success != error
    requires !(failure <= success) && !(failure <= error)
    ensures reply == success <==> outcome == Responded(200)
    ensures reply == error <==> outcome.TransportError?
    ensures outcome.Responded? && outcome.status != 200 ==> reply == failure + Decimal(outcome.status)
  {
    match outcome
    case TransportError => error
    case Responded(status) =>
      if status == 200 then success
      else
        var reply := failure + Decimal(status);
        assert reply[..|failure|] == failure;
        reply
  }

  /** The payloads of a sequence of POSTs, in order. */
  function Payloads(posts: seq<Post>): (ps: seq<Payload>)
    ensures |ps| == |posts|
    ensures forall j :: 0 <= j < |posts| ==> ps[j] == posts[j].payload
  {
    seq(|posts|, j requires 0 <= j < |posts| => posts[j].payload)
  }

  /** The decimal digits of `n`, as a JavaScript template literal prints an
      integer. */
  function Decimal(n: nat): (s: string)
    ensures |s| >= 1
    ensures forall k :: 0 <= k < |s| ==> '0' <= s[k] <= '9'
  {
    var digit := (48 + n % 10) as char;
    if n < 10 then [digit] else Decimal(n / 10) + [digit]
  }

  /** The value of a string of decimal digits. */
  function DigitsValue(s: string): nat
    requires forall k :: 0 <= k < |s| ==> '0' <= s[k] <= '9'
  {
    if |s| == 0 then 0 else 10 * DigitsValue(s[..|s| - 1]) + (s[|s| - 1] as int - 48)
  }

  /** `Decimal` prints the number it is given, without leading zeros. */
  lemma {:induction false} DecimalValue(n: nat)
    ensures DigitsValue(Decimal(n)) == n
    ensures n > 0 ==> Decimal(n)[0] != '0'
  {
    var digit := (48 + n % 10) as char;
    if n >= 10 {
      DecimalValue(n / 10);
      var s := Decimal(n / 10) + [digit];
      assert s[..|s| - 1] == Decimal(n / 10);
    }
  }
}

=== FILE: gif.dfy ===
/** The `/gif` command (commands/utility/gif.js): fetch and decode the
    attached GIF, send a reset, then send up to 60 frames, each resized to
    64x64, stripped to RGB and base64-encoded, as one `Draw/SendHttpGif`
    POST per frame. */
module Gif {
  import opened Wrappers
  import opened Raster
  import opened Device
  import opened PicData

  /** The fields of gifuct-js's `IGIFFrame` that the command reads. */
  datatype Dims = Dims(top: int, left: int, width: int, height: int)
  datatype Frame = Frame(dims: Dims, patch: seq<Byte>, delay: int)

  /** What `fetch(url)` and `response.arrayBuffer()` produced. */
  datatype Fetched =
    | FetchThrew
    | Response(ok: bool, statusText: string, body: seq<Byte>)

  /** The errors `processGif` raises. */
  datatype GifError =
    | FetchFailed
    | BadStatus(statusText: string)
    | DecodeFailed
    | NoFrames

  /** `new GIF(bytes).decompressFrames(true)`; None when the decoder throws. */
  type Decoder = seq<Byte> -> Option<seq<Frame>>

  /** sharp's `resize(64, 64).raw()` of a frame's RGBA patch: 64x64 RGBA,
      or None when sharp rejects the frame (its patch does not match its
      dimensions, say). */
  type Resizer = Frame -> Option<Rgba64>

  function Min(a: int, b: int): int {
    if a < b then a else b
  }

  /** At most this many frames are sent. */
  const MaxFrames: nat := 60
  /** `Math.random()` is scaled to an id in [0, IdRange). */
  const IdRange: nat := 10000
  /** Milliseconds per frame chosen by `execute`. */
  const Speed: int := 100

  /** `processGif`: the decoded frames, or the error that makes the command
      fail before anything is sent to the device. */
  function ProcessGif(fetched: Fetched, decode: Decoder): (r: Result<seq<Frame>, GifError>)
    ensures r.Ok? <==> fetched.Response? && fetched.ok && decode(fetched.body).Some?
                       && |decode(fetched.body).value| > 0
    ensures r.Ok? ==> r.value == decode(fetched.body).value
    ensures fetched.FetchThrew? ==> r == Err(FetchFailed)
    ensures fetched.Response? && !fetched.ok ==> r == Err(BadStatus(fetched.statusText))
    ensures fetched.Response? && fetched.ok && decode(fetched.body).None? ==> r == Err(DecodeFailed)
    ensures fetched.Response? && fetched.ok && decode(fetched.body) == Some([]) ==> r == Err(NoFrames)
  {
    match fetched
    case FetchThrew => Err(FetchFailed)
    case Response(ok, statusText, body) =>
      if !ok then Err(BadStatus(statusText))
      else
        match decode(body)
        case None => Err(DecodeFailed)
        case Some(frames) => if |frames| == 0 then Err(NoFrames) else Ok(frames)
  }

  /** What the frame loop has to send for one frame: the `PicData` text of
      its resized raster, or None when resizing threw and the loop moved on
      to the next frame without a POST. */
  function FrameData(frame: Frame, resize: Resizer): (d: Option<string>)
    ensures d.Some? <==> resize(frame).Some?
  {
    match resize(frame)
    case None => None
    case Some(raster) => Some(RgbBase64(raster))
  }

  /** The frames the loop visits: the first 60. */
  function Attempts(frames: seq<Frame>, resize: Resizer): (data: seq<Option<string>>)
    ensures |data| == Min(|frames|, MaxFrames)
    ensures forall i :: 0 <= i < |data| ==> data[i] == FrameData(frames[i], resize)
  {
    var n := Min(|frames|, MaxFrames);
    seq(n, i requires 0 <= i < n => FrameData(frames[i], resize))
  }

  /** The offsets, from `i` on, of the frames that have data to send. */
  function Resized(data: seq<Option<string>>, i: nat): (offsets: seq<nat>)
    requires i <= |data|
    ensures forall j :: 0 <= j < |offsets| ==> i <= offsets[j] < |data| && data[offsets[j]].Some?
    decreases |data| - i
  {
    if i == |data| then []
    else
      var later := Resized(data, i + 1);
      if data[i].Some? then [i] + later else later
  }

  /** The offsets come in increasing order, so no frame is sent twice and
      the frames go out in the order of the animation. */
  lemma {:induction false} ResizedIncreasing(data: seq<Option<string>>, i: nat)
    requires i <= |data|
    ensures forall j, j' :: 0 <= j < j' < |Resized(data, i)| ==> Resized(data, i)[j] < Resized(data, i)[j']
    decreases |data| - i
  {
    if i < |data| {
      ResizedIncreasing(data, i + 1);
      if data[i].Some? {
        var later := Resized(data, i + 1);
        var offsets := [i] + later;
        assert Resized(data, i) == offsets;
        forall j, j' | 0 <= j < j' < |offsets|
          ensures offsets[j] < offsets[j']
        {
          assert offsets[j'] == later[j' - 1];
          if j > 0 {
            assert offsets[j] == later[j - 1];
          }
        }
      }
    }
  }

  /** Every frame that has data is among the offsets: the loop skips
      exactly the frames whose resize threw. */
  lemma {:induction false} ResizedComplete(data: seq<Option<string>>, i: nat)
    requires i <= |data|
    ensures forall t :: i <= t < |data| && data[t].Some? ==> t in Resized(data, i)
    decreases |data| - i
  {
    if i < |data| {
      ResizedComplete(data, i + 1);
      if data[i].Some? {
        assert Resized(data, i) == [i] + Resized(data, i + 1);
      }
    }
  }

  /** When every frame resized, every frame is in turn. */
  lemma {:induction false} ResizedAll(data: seq<Option<string>>, i: nat)
    requires i <= |data|
    requires forall t :: i <= t < |data| ==> data[t].Some?
    ensures |Resized(data, i)| == |data| - i
    ensures forall j :: 0 <= j < |data| - i ==> Resized(data, i)[j] == i + j
    decreases |data| - i
  {
    if i < |data| {
      ResizedAll(data, i + 1);
      var later := Resized(data, i + 1);
      assert Resized(data, i) == [i] + later;
    }
  }

  /** The frame loop of `sendGifToPixoo` from frame `i` on: one POST per
      frame that has data, whatever the outcome of the earlier POSTs, all
      telling the device the same frame count; `k` numbers the POSTs. */
  function SendFrames(data: seq<Option<string>>, i: nat, picId: int, picSpeed: int, net: Network, k: nat): (posts: seq<Post>)
    requires i <= |data|
    ensures |posts| == |Resized(data, i)|
    ensures forall j :: 0 <= j < |posts| ==>
              var t := Resized(data, i)[j];
              && posts[j].payload == SendHttpGif(|data|, Side, t, picId, picSpeed, data[t].value)
              && posts[j].outcome == net(k + j)
    decreases |data| - i
  {
    if i == |data| then []
    else
      match data[i]
      case None => SendFrames(data, i + 1, picId, picSpeed, net, k)
      case Some(text) =>
        var payload := SendHttpGif(|data|, Side, i, picId, picSpeed, text);
        var later := SendFrames(data, i + 1, picId, picSpeed, net, k + 1);
        var posts := [Post(payload, net(k))] + later;
        assert Resized(data, i) == [i] + Resized(data, i + 1);
        assert forall j :: 1 <= j < |posts| ==> posts[j] == later[j - 1];
        posts
  }

  /** The offsets of the frames among the first 60 whose resize
      succeeded: the frames the loop POSTs. */
  function SentOffsets(frames: seq<Frame>, resize: Resizer): (offsets: seq<nat>)
    ensures forall j :: 0 <= j < |offsets| ==>
              offsets[j] < Min(|frames|, MaxFrames) && resize(frames[offsets[j]]).Some?
  {
    Resized(Attempts(frames, resize), 0)
  }

  /** `sendGifToPixoo`: a reset POST (number `k`), and only if it answered
      2xx, one POST for each of the first 60 frames that resized, with the
      frame's offset, the number of frames visited, and a shared id, width
      and speed. */
  function SendGifToPixoo(frames: seq<Frame>, picId: int, picSpeed: int, resize: Resizer,
                          net: Network, k: nat): (posts: seq<Post>)
    ensures |posts| >= 1 && posts[0] == Post(ResetHttpGifId, net(k))
    ensures !net(k).IsOk() ==> |posts| == 1
    ensures net(k).IsOk() ==> |posts| == 1 + |SentOffsets(frames, resize)|
    ensures forall j :: 1 <= j < |posts| ==>
              var t := SentOffsets(frames, resize)[j - 1];
              posts[j] == Post(SendHttpGif(Min(|frames|, MaxFrames), Side, t, picId, picSpeed,
                                           RgbBase64(resize(frames[t]).value)), net(k + j))
  {
    var reset := Post(ResetHttpGifId, net(k));
    if !net(k).IsOk() then [reset]
    else
      var data := Attempts(frames, resize);
      var sent := SendFrames(data, 0, picId, picSpeed, net, k + 1);
      var posts := [reset] + sent;
      assert forall j :: 1 <= j < |posts| ==>
               var t := SentOffsets(frames, resize)[j - 1];
               posts[j] == Post(SendHttpGif(Min(|frames|, MaxFrames), Side, t, picId, picSpeed,
                                            RgbBase64(resize(frames[t]).value)), net(k + j)) by {
        forall j | 1 <= j < |posts|
          ensures var t := SentOffsets(frames, resize)[j - 1];
                  posts[j] == Post(SendHttpGif(Min(|frames|, MaxFrames), Side, t, picId, picSpeed,
                                               RgbBase64(resize(frames[t]).value)), net(k + j))
        {
          assert posts[j] == sent[j - 1];
          SentData(frames, resize, SentOffsets(frames, resize)[j - 1]);
        }
      }
      posts
  }

  /** The text the loop has for a frame that resized. */
  lemma SentData(frames: seq<Frame>, resize: Resizer, t: nat)
    requires t < Min(|frames|, MaxFrames) && resize(frames[t]).Some?
    ensures Attempts(frames, resize)[t] == Some(RgbBase64(resize(frames[t]).value))
  {
  }

  /** When the reset succeeds and every frame resizes, frame i of the first
      60 is POST number i + 1 of the call, with offset i. */
  lemma AllFramesSent(frames: seq<Frame>, picId: int, picSpeed: int, resize: Resizer, net: Network, k: nat)
    requires net(k).IsOk()
    requires forall i :: 0 <= i < |frames| ==> resize(frames[i]).Some?
    ensures var posts := SendGifToPixoo(frames, picId, picSpeed, resize, net, k);
            && |posts| == 1 + Min(|frames|, MaxFrames)
            && forall j :: 1 <= j < |posts| ==>
                 posts[j].payload.picOffset == j - 1
                 && posts[j].payload.picData == RgbBase64(resize(frames[j - 1]).value)
  {
    ResizedAll(Attempts(frames, resize), 0);
  }

  /** The picture the text and image commands send is the frame this loop
      would send for a one-frame GIF at speed 100. */
  lemma OneFrameGif(frame: Frame, picId: int, resize: Resizer, net: Network, k: nat)
    requires net(k).IsOk() && resize(frame).Some?
    ensures var posts := SendGifToPixoo([frame], picId, Speed, resize, net, k);
            && |posts| == 2
            && posts[1] == Post(SingleFrame(picId, RgbBase64(resize(frame).value)), net(k + 1))
  {
    ResizedAll(Attempts([frame], resize), 0);
  }

  /** What the frame POSTs return never changes what is sent: two runs
      whose reset ended alike send the same payloads, so a failed frame
      never stops the frames after it. */
  lemma FrameOutcomesIgnored(frames: seq<Frame>, picId: int, picSpeed: int, resize: Resizer,
                             net1: Network, net2: Network, k: nat)
    requires net1(k).IsOk() == net2(k).IsOk()
    ensures Payloads(SendGifToPixoo(frames, picId, picSpeed, resize, net1, k))
         == Payloads(SendGifToPixoo(frames, picId, picSpeed, resize, net2, k))
  {
    var p1 := Payloads(SendGifToPixoo(frames, picId, picSpeed, resize, net1, k));
    var p2 := Payloads(SendGifToPixoo(frames, picId, picSpeed, resize, net2, k));
    assert |p1| == |p2|;
    forall j | 0 <= j < |p1|
      ensures p1[j] == p2[j]
    {
    }
  }

  /** The id `execute` gives an animation: `Math.floor(Math.random() * 10000)`. */
  function PicId(random: real): (id: int)
    requires 0.0 <= random < 1.0
    ensures 0 <= id < IdRange
  {
    (random * IdRange as real).Floor
  }

  /** `execute`: without an attachment, or when `processGif` fails, nothing
      is POSTed. Otherwise a first reset (`sendResetCommand`, which never
      raises) is followed by `sendGifToPixoo` with a fresh id and speed 100,
      and the reply reports completion even when that second reset failed
      and no frame was sent. The command never touches `lastImage`. */
  function Execute(attachment: Option<Fetched>, decode: Decoder, resize: Resizer, random: real,
                   net: Network, lastImage: Option<string>): (e: Effect)
    requires 0.0 <= random < 1.0
    ensures e.lastImage == lastImage
    ensures attachment.None? ==> e.reply == "No GIF attachment found!" && e.posts == []
    ensures attachment.Some? && ProcessGif(attachment.value, decode).Err? ==>
              e.reply == "Failed to process the GIF." && e.posts == []
    ensures attachment.Some? && ProcessGif(attachment.value, decode).Ok? ==>
              && e.reply == "GIF processing and sending completed."
              && |e.posts| >= 2
              && e.posts[0] == Post(ResetHttpGifId, net(0))
              && e.posts[1..] == SendGifToPixoo(ProcessGif(attachment.value, decode).value,
                                                PicId(random), Speed, resize, net, 1)
  {
    match attachment
    case None => Effect("No GIF attachment found!", [], lastImage)
    case Some(fetched) =>
      match ProcessGif(fetched, decode)
      case Err(_) => Effect("Failed to process the GIF.", [], lastImage)
      case Ok(frames) =>
        var first := Post(ResetHttpGifId, net(0));
        var rest := SendGifToPixoo(frames, PicId(random), Speed, resize, net, 1);
        Effect("GIF processing and sending completed.", [first] + rest, lastImage)
  }

  /** A failed first reset is not fatal: as long as the reset inside
      `sendGifToPixoo` succeeds, a POST goes out for every frame (up to 60)
      that resized, all with the same id in [0, 9999] and speed 100. */
  lemma FirstResetNotFatal(fetched: Fetched, decode: Decoder, resize: Resizer, random: real,
                           net: Network, lastImage: Option<string>)
    requires 0.0 <= random < 1.0
    requires ProcessGif(fetched, decode).Ok?
    requires net(1).IsOk()
    ensures var e := Execute(Some(fetched), decode, resize, random, net, lastImage);
            var frames := ProcessGif(fetched, decode).value;
            var n := Min(|frames|, MaxFrames);
            && |e.posts| == 2 + |SentOffsets(frames, resize)|
            && forall j :: 2 <= j < |e.posts| ==>
                 var p := e.posts[j].payload;
                 p.SendHttpGif? && p.picNum == n && 0 <= p.picId < IdRange && p.picSpeed == Speed
  {
    var e := Execute(Some(fetched), decode, resize, random, net, lastImage);
    var rest := SendGifToPixoo(ProcessGif(fetched, decode).value, PicId(random), Speed, resize, net, 1);
    assert e.posts[1..] == rest;
    forall j | 2 <= j < |e.posts|
      ensures e.posts[j] == rest[j - 1]
    {
    }
  }
}

=== FILE: image.dfy ===
/** The `/image` command (commands/utility/image.js): draw the attached
    image onto a 64x64 canvas and send its RGB data as a one-frame
    animation; and the grayscale filter the file defines. Loading,
    resizing and the canvas's brightness/contrast filter are done by
    node-canvas and are a parameter: the drawn canvas, or a load failure. */
module Image {
  import opened Wrappers
  import opened Raster
  import opened Device
  import opened PicData
  import Base64

  /** A typed-array store of a real into a `Uint8ClampedArray`
      (ToUint8Clamp): clamp to [0, 255] and round to the nearest integer,
      ties to even. */
  function ClampToByte(x: real): (v: Byte)
    ensures x <= 0.0 ==> v == 0
    ensures x >= 255.0 ==> v == 255
    ensures 0.0 < x < 255.0 ==> -0.5 <= v as real - x <= 0.5
  {
    if x <= 0.0 then 0
    else if x >= 255.0 then 255
    else
      var f := x.Floor;
      if f as real + 0.5 < x then f + 1
      else if x < f as real + 0.5 then f
      else if f % 2 == 0 then f
      else f + 1
  }

  /** The grayscale level of one pixel: the mean of R, G and B stored into
      the canvas data. A third of an integer is never exactly half-way, so
      the store rounds the mean to the nearest integer. */
  function Average(r: Byte, g: Byte, b: Byte): (v: Byte)
    ensures v == (r + g + b + 1) / 3
  {
    var s := r + g + b;
    var x := s as real / 3.0;
    assert x == (s / 3) as real + (s % 3) as real / 3.0;
    ClampToByte(x)
  }

  /** `applyGrayscale`: every pixel's R, G and B become their rounded mean;
      alpha is unchanged. */
  function ApplyGrayscale(data: Rgba64): (out: Rgba64)
    ensures forall k :: 0 <= k < PixelCount ==>
              var p := PixelAt(data, k);
              var v := (p.r + p.g + p.b + 1) / 3;
              PixelAt(out, k) == Pixel(v, v, v, p.a)
  {
    Recolor(data, Average)
  }

  /** Gray pixels: R, G and B equal. */
  predicate Gray(data: Rgba64) {
    forall k :: 0 <= k < PixelCount ==>
      PixelAt(data, k).r == PixelAt(data, k).g == PixelAt(data, k).b
  }

  /** The filter makes every pixel gray and leaves a gray canvas as it
      is. */
  lemma GrayscaleFixes(data: Rgba64)
    ensures Gray(ApplyGrayscale(data))
    ensures Gray(data) ==> ApplyGrayscale(data) == data
  {
    var out := ApplyGrayscale(data);
    if Gray(data) {
      forall k | 0 <= k < PixelCount
        ensures PixelAt(out, k) == PixelAt(data, k)
      {
        var p := PixelAt(data, k);
        assert (p.r + p.g + p.b + 1) / 3 == p.r;
      }
      SamePixels(out, data);
    }
  }

  /** Applying the filter twice is applying it once. */
  lemma GrayscaleIdempotent(data: Rgba64)
    ensures ApplyGrayscale(ApplyGrayscale(data)) == ApplyGrayscale(data)
  {
    GrayscaleFixes(data);
    GrayscaleFixes(ApplyGrayscale(data));
  }

  /** What `loadImage(url)` and drawing onto the 64x64 canvas produced. */
  datatype Loaded = LoadFailed | Drawn(canvas: Rgba64)

  const Missing := "No image attachment found!"
  const Sent := "Image processed and sent to Pixoo."
  const Refused := "Failed to send image to Pixoo. Status code: "
  const Failed := "Failed to process the image."

  /** `execute` for `/image`. Without an attachment nothing is sent. With
      one, a reset is POSTed first without waiting for it; if the image
      cannot be loaded that is all. Otherwise the canvas's RGB data is
      stored as the last image and POSTed as frame 0 of a one-frame
      animation whose id is the current time; the reply depends only on
      that second POST. The grayscale filter is not applied. */
  function Execute(attachment: Option<Loaded>, now: int, net: Network,
                   lastImage: Option<string>): (e: Effect)
    ensures attachment.None? ==> e == Effect(Missing, [], lastImage)
    ensures attachment == Some(LoadFailed) ==>
              e == Effect(Failed, [Post(ResetHttpGifId, net(0))], lastImage)
    ensures attachment.Some? && attachment.value.Drawn? ==>
              var data := RgbBase64(attachment.value.canvas);
              && |e.posts| == 2
              && e.posts[0] == Post(ResetHttpGifId, net(0))
              && e.posts[1] == Post(SendHttpGif(1, Side, 0, now, 100, data), net(1))
              && e.lastImage == Some(data)
              && (e.reply == Sent <==> net(1) == Responded(200))
              && (e.reply == Failed <==> net(1).TransportError?)
              && (net(1).Responded? && net(1).status != 200 ==> e.reply == Refused + Decimal(net(1).status))
  {
    match attachment
    case None => Effect(Missing, [], lastImage)
    case Some(LoadFailed) => Effect(Failed, [Post(ResetHttpGifId, net(0))], lastImage)
    case Some(Drawn(canvas)) =>
      var data := RgbBase64(canvas);
      var reset := Post(ResetHttpGifId, net(0));
      var send := Post(SingleFrame(now, data), net(1));
      Effect(StatusReply(net(1), Sent, Refused, Failed), [reset, send], Some(data))
  }

  /** The text the device receives is 16384 base64 characters without
      padding, it is the text stored as the last image, and it decodes to
      the colour of every canvas pixel in order. */
  lemma SentPicture(canvas: Rgba64, now: int, net: Network, lastImage: Option<string>)
    ensures var e := Execute(Some(Drawn(canvas)), now, net, lastImage);
            var data := e.posts[1].payload.picData;
            && e.lastImage == Some(data)
            && |data| == RgbaLen
            && Base64.Pad !in data
            && Base64.Decode(data).Some?
            && |Base64.Decode(data).value| == RgbLen
            && forall k :: 0 <= k < PixelCount ==>
                 RgbAt(Base64.Decode(data).value, k) == ColourOf(PixelAt(canvas, k))
  {
    FrameText(canvas);
    FramePixels(canvas);
  }
}

=== FILE: picdata.dfy ===
/** The `PicData` field of a `Draw/SendHttpGif` command: the RGB bytes of
    a raster, base64-encoded (`getRGBBase64` in commands/utility/gif.js,
    text.js and image.js). The text and image commands allocate a fixed
    64*64*3-byte buffer where the gif command allocates `length / 4 * 3`
    bytes; for the 64x64 canvases they are given the two sizes agree, so
    one definition serves all three. */
module PicData {
  import opened Wrappers
  import opened Raster
  import Base64

  /** `getRGBBase64`: the base64 text of the RGB bytes of a raw RGBA buffer. */
  function RgbBase64(buffer: seq<Byte>): string {
    Base64.Encode(StripAlpha(buffer))
  }

  /** Decoding the text gives back exactly the stripped bytes: a buffer of
      `length / 4 * 3` bytes in which byte `j` is byte `4 * (j / 3) + j % 3`
      of the input, so alpha never reaches the device. */
  lemma RgbBase64Decodes(buffer: seq<Byte>)
    ensures Base64.Decode(RgbBase64(buffer)) == Some(StripAlpha(buffer))
    ensures |StripAlpha(buffer)| == 3 * |buffer| / 4
    ensures |RgbBase64(buffer)| == 4 * ((3 * |buffer| / 4 + 2) / 3)
  {
    Base64.DecodeEncode(StripAlpha(buffer));
  }

  /** A 64x64 raster becomes 16384 base64 characters without
      padding, which decode to its 12288 RGB bytes. */
  lemma FrameText(raster: Rgba64)
    ensures |RgbBase64(raster)| == RgbaLen
    ensures Base64.Pad !in RgbBase64(raster)
    ensures Base64.Decode(RgbBase64(raster)) == Some(StripAlpha(raster))
  {
    Base64.RasterText(StripAlpha(raster));
  }

  /** Those 12288 bytes carry the colour of every pixel of the raster, in
      order. */
  lemma FramePixels(raster: Rgba64)
    ensures |StripAlpha(raster)| == RgbLen
    ensures forall k :: 0 <= k < PixelCount ==>
              RgbAt(StripAlpha(raster), k) == ColourOf(PixelAt(raster, k))
  {
    StripAlphaPixels(raster);
  }
}

=== FILE: raster.dfy ===
/** Flat pixel buffers of the 64x64 display: the RGBA layout of a canvas
    `ImageData` (and of sharp's raw output) and the RGB layout the device
    receives, with the alpha-stripping copy shared by the gif, text and image
    commands. */
module Raster {

  /** One element of a Node `Buffer` or of a canvas `Uint8ClampedArray`. */
  type Byte = b: int | 0 <= b < 256

  /** The device is a square of `Side` x `Side` pixels. */
  const Side: nat := 64
  /** `Side * Side` pixels. */
  const PixelCount: nat := 4096
  /** Bytes of a 64x64 RGBA raster (four channels per pixel). */
  const RgbaLen: nat := 16384
  /** Bytes of a 64x64 RGB raster (three channels per pixel). */
  const RgbLen: nat := 12288

  /** The pixel data of a 64x64 canvas, row-major, R,G,B,A interleaved. */
  type Rgba64 = s: seq<Byte> | |s| == RgbaLen witness seq(RgbaLen, _ => 0)

  datatype Pixel = Pixel(r: Byte, g: Byte, b: Byte, a: Byte)

  datatype Rgb = Rgb(r: Byte, g: Byte, b: Byte)

  /** Pixel `k` of an RGBA buffer. */
  function PixelAt(rgba: seq<Byte>, k: nat): Pixel
    requires 4 * k + 4 <= |rgba|
  {
    Pixel(rgba[4 * k], rgba[4 * k + 1], rgba[4 * k + 2], rgba[4 * k + 3])
  }

  /** Pixel `k` of an RGB buffer. */
  function RgbAt(rgb: seq<Byte>, k: nat): Rgb
    requires 3 * k + 3 <= |rgb|
  {
    Rgb(rgb[3 * k], rgb[3 * k + 1], rgb[3 * k + 2])
  }

  /** The colour part of an RGBA pixel. */
  function ColourOf(p: Pixel): Rgb {
    Rgb(p.r, p.g, p.b)
  }

  /** The copy loop of `getRGBBase64`: a buffer of `length / 4 * 3` bytes
      (Node truncates a fractional size) receiving R, G and B of every
      4-byte group. Writes past the end of the typed array are dropped, so a
      trailing partial group contributes only the bytes that still fit. */
  function StripAlpha(rgba: seq<Byte>): (rgb: seq<Byte>)
    ensures |rgb| == 3 * |rgba| / 4
    ensures forall j :: 0 <= j < |rgb| ==> rgb[j] == rgba[4 * (j / 3) + j % 3]
    decreases |rgba|
  {
    if |rgba| < 4 then rgba[..3 * |rgba| / 4]
    else rgba[..3] + StripAlpha(rgba[4..])
  }

  /** For whole pixels, stripping keeps exactly the colour of every pixel,
      in order, and nothing else. */
  lemma StripAlphaPixels(rgba: seq<Byte>)
    requires |rgba| % 4 == 0
    ensures |StripAlpha(rgba)| == 3 * (|rgba| / 4)
    ensures forall k :: 0 <= k < |rgba| / 4 ==>
              RgbAt(StripAlpha(rgba), k) == ColourOf(PixelAt(rgba, k))
  {
    var rgb := StripAlpha(rgba);
    forall k | 0 <= k < |rgba| / 4
      ensures RgbAt(rgb, k) == ColourOf(PixelAt(rgba, k))
    {
      ColourIndex(k);
    }
  }

  /** The three bytes of colour `k` sit at offsets 0..2 of the group starting at `3 * k`. */
  lemma ColourIndex(k: nat)
    ensures (3 * k) / 3 == k && (3 * k + 1) / 3 == k && (3 * k + 2) / 3 == k
    ensures (3 * k) % 3 == 0 && (3 * k + 1) % 3 == 1 && (3 * k + 2) % 3 == 2
  {
  }

  /** The loop shared by the black/white threshold and the grayscale filter:
      every pixel's R, G and B are replaced by one level computed from them,
      and its alpha is left alone. */
  function Recolor(rgba: Rgba64, level: (Byte, Byte, Byte) -> Byte): (out: Rgba64)
    ensures forall k :: 0 <= k < PixelCount ==>
              var p := PixelAt(rgba, k);
              var v := level(p.r, p.g, p.b);
              PixelAt(out, k) == Pixel(v, v, v, p.a)
  {
    var out: Rgba64 := seq(RgbaLen, i requires 0 <= i < RgbaLen => RecolorByte(rgba, level, i));
    RecolorPixels(rgba, level, out);
    out
  }

  /** A raster made of the recoloured bytes holds the recoloured pixels. */
  lemma RecolorPixels(rgba: Rgba64, level: (Byte, Byte, Byte) -> Byte, out: Rgba64)
    requires forall i :: 0 <= i < RgbaLen ==> out[i] == RecolorByte(rgba, level, i)
    ensures forall k :: 0 <= k < PixelCount ==>
              var p := PixelAt(rgba, k);
              var v := level(p.r, p.g, p.b);
              PixelAt(out, k) == Pixel(v, v, v, p.a)
  {
    forall k | 0 <= k < PixelCount
      ensures var p := PixelAt(rgba, k);
              var v := level(p.r, p.g, p.b);
              PixelAt(out, k) == Pixel(v, v, v, p.a)
    {
      ChannelIndex(k);
    }
  }

  /** Byte `i` of the recoloured raster. */
  function RecolorByte(rgba: Rgba64, level: (Byte, Byte, Byte) -> Byte, i: nat): Byte
    requires i < RgbaLen
  {
    var base := i - i % 4;
    if i % 4 == 3 then rgba[i] else level(rgba[base], rgba[base + 1], rgba[base + 2])
  }

  /** The four bytes of pixel `k` sit at offsets 0..3 of the group starting at `4 * k`. */
  lemma ChannelIndex(k: nat)
    ensures (4 * k) % 4 == 0 && (4 * k + 1) % 4 == 1 && (4 * k + 2) % 4 == 2 && (4 * k + 3) % 4 == 3
    ensures (4 * k) / 4 == k && (4 * k + 1) / 4 == k && (4 * k + 2) / 4 == k && (4 * k + 3) / 4 == k
  {
  }

  /** Two rasters with the same pixels are the same raster. */
  lemma SamePixels(x: Rgba64, y: Rgba64)
    requires forall k :: 0 <= k < PixelCount ==> PixelAt(x, k) == PixelAt(y, k)
    ensures x == y
  {
    forall i | 0 <= i < RgbaLen
      ensures x[i] == y[i]
    {
      var k := i / 4;
      assert PixelAt(x, k) == PixelAt(y, k);
      assert i == 4 * k + i % 4;
    }
  }

  /** Two 64x64 RGB buffers with the same colours are the same buffer. */
  lemma SameColours(x: seq<Byte>, y: seq<Byte>)
    requires |x| == RgbLen && |y| == RgbLen
    requires forall k :: 0 <= k < PixelCount ==> RgbAt(x, k) == RgbAt(y, k)
    ensures x == y
  {
    forall j | 0 <= j < RgbLen
      ensures x[j] == y[j]
    {
      var k := j / 3;
      assert RgbAt(x, k) == RgbAt(y, k);
      assert j == 3 * k + j % 3;
    }
  }

  /** The raster with every alpha byte set to 255 (fully opaque). */
  function Opaque(rgba: Rgba64): (out: Rgba64)
    ensures forall k :: 0 <= k < PixelCount ==>
              PixelAt(out, k) == PixelAt(rgba, k).(a := 255)
  {
    var out: Rgba64 := seq(RgbaLen, i requires 0 <= i < RgbaLen => if i % 4 == 3 then 255 else rgba[i]);
    OpaquePixels(rgba, out);
    out
  }

  /** A raster whose alpha bytes are 255 and whose other bytes are those of
      `rgba` holds the pixels of `rgba`, made opaque. */
  lemma OpaquePixels(rgba: Rgba64, out: Rgba64)
    requires forall i :: 0 <= i < RgbaLen ==> out[i] == if i % 4 == 3 then 255 else rgba[i]
    ensures forall k :: 0 <= k < PixelCount ==> PixelAt(out, k) == PixelAt(rgba, k).(a := 255)
  {
    forall k | 0 <= k < PixelCount
      ensures PixelAt(out, k) == PixelAt(rgba, k).(a := 255)
    {
      ChannelIndex(k);
    }
  }
}

=== FILE: session.dfy ===
/** The picture shared between commands through `imageBuffer.lastImage`:
    what `/currentimage` shows after `/image` or `/text` stored their
    frame. */
module Session {
  import opened Wrappers
  import opened Raster
  import opened PicData
  import Device
  import Image
  import Text
  import CurrentImage
  import WordWrap

  /** After `/image` drew a canvas, `/currentimage` shows that canvas with
      every pixel made opaque, whatever happened to the POSTs. */
  lemma ImageShownBack(canvas: Rgba64, now: int, net: Device.Network, lastImage: Option<string>,
                       lenient: CurrentImage.Lenient)
    ensures var stored := Image.Execute(Some(Image.Drawn(canvas)), now, net, lastImage).lastImage;
            CurrentImage.Execute(stored, lenient)
              == CurrentImage.Shown(CurrentImage.Latest, Some(Opaque(canvas)))
  {
    FrameText(canvas);
    CurrentImage.UnpackStrip(canvas);
  }

  /** After `/text` drew a message, `/currentimage` shows the drawn black
      and white canvas, made opaque. */
  lemma TextShownBack(message: string, measure: WordWrap.Measure, paint: Text.Painter, now: int,
                      net: Device.Network, lastImage: Option<string>, lenient: CurrentImage.Lenient)
    requires message != ""
    ensures var stored := Text.Execute(Some(message), measure, paint, now, net, lastImage).lastImage;
            var canvas := Text.DrawTextOnCanvas(message, measure, paint);
            CurrentImage.Execute(stored, lenient)
              == CurrentImage.Shown(CurrentImage.Latest, Some(Opaque(canvas)))
  {
    var canvas := Text.DrawTextOnCanvas(message, measure, paint);
    FrameText(canvas);
    CurrentImage.UnpackStrip(canvas);
  }
}

=== FILE: text.dfy ===
/** The `/text` command (commands/utility/text.js): wrap the message into
    lines, draw them in white on a black 64x64 canvas, force every pixel to
    pure black or white, and send the result as a one-frame animation. The
    canvas's font rendering and text measurement are parameters. */
module Text {
  import opened Wrappers
  import opened Raster
  import opened Device
  import opened PicData
  import opened WordWrap
  import Base64

  /** Vertical distance between the baselines of two lines, in pixels. */
  const LineHeight: int := 10
  /** `wrapText` is given the canvas width as its limit. */
  const MaxWidth: real := 64.0

  /** One `ctx.fillText(text, x, y)` call. */
  datatype TextOp = FillText(text: string, x: int, y: int)

  /** node-canvas: a 64x64 canvas filled black on which the given strings
      are drawn in white in the 10px pixel font, read back with
      `getImageData`. */
  type Painter = seq<TextOp> -> Rgba64

  /** The `lines.forEach` loop of `drawTextOnCanvas`, starting with
      `yOffset`: line `k` is drawn at the left edge, `k + 1` line heights
      below `yOffset`. */
  function DrawLines(lines: seq<string>, yOffset: int): (ops: seq<TextOp>)
    ensures |ops| == |lines|
    ensures forall k :: 0 <= k < |lines| ==>
              ops[k] == FillText(lines[k], 0, yOffset + LineHeight * (k + 1))
    decreases |lines|
  {
    if |lines| == 0 then []
    else
      var later := DrawLines(lines[1..], yOffset + LineHeight);
      var ops := [FillText(lines[0], 0, yOffset + LineHeight)] + later;
      assert forall k :: 1 <= k < |ops| ==> ops[k] == later[k - 1];
      ops
  }

  /** What `drawTextOnCanvas` draws: one non-empty line per call, the k-th
      wrapped line at x = 0 and y = 10 (k + 1), so the baselines descend
      one line height at a time. */
  function Layout(text: string, measure: Measure): (ops: seq<TextOp>)
    ensures |ops| == |WrapText(text, measure, MaxWidth)|
    ensures forall k :: 0 <= k < |ops| ==>
              && ops[k].text == WrapText(text, measure, MaxWidth)[k]
              && ops[k].text != ""
              && ops[k].x == 0
              && ops[k].y == LineHeight * (k + 1)
  {
    var lines := WrapText(text, measure, MaxWidth);
    assert forall k :: 0 <= k < |lines| ==> lines[k] in lines;
    DrawLines(lines, 0)
  }

  /** The threshold of one pixel: black when the mean of R, G and B is below
      128, white otherwise. */
  function BlackOrWhite(r: Byte, g: Byte, b: Byte): (v: Byte)
    ensures v == 0 <==> r + g + b < 384
    ensures v == 0 || v == 255
  {
    if (r + g + b) as real / 3.0 < 128.0 then 0 else 255
  }

  /** The black-and-white loop of `drawTextOnCanvas`: every pixel becomes
      pure black or pure white by the mean of its colour, keeping its
      alpha. */
  function Threshold(data: Rgba64): (out: Rgba64)
    ensures forall k :: 0 <= k < PixelCount ==>
              var p := PixelAt(data, k);
              PixelAt(out, k) == if p.r + p.g + p.b < 384 then Pixel(0, 0, 0, p.a)
                                 else Pixel(255, 255, 255, p.a)
  {
    Recolor(data, BlackOrWhite)
  }

  /** Pure black and pure white pixels. */
  predicate Monochrome(data: Rgba64) {
    forall k :: 0 <= k < PixelCount ==>
      PixelAt(data, k).r == PixelAt(data, k).g == PixelAt(data, k).b
      && (PixelAt(data, k).r == 0 || PixelAt(data, k).r == 255)
  }

  /** Thresholding leaves only black and white, and changes nothing on a
      canvas that is already black and white. */
  lemma ThresholdFixes(data: Rgba64)
    ensures Monochrome(Threshold(data))
    ensures Monochrome(data) ==> Threshold(data) == data
  {
    var out := Threshold(data);
    if Monochrome(data) {
      forall k | 0 <= k < PixelCount
        ensures PixelAt(out, k) == PixelAt(data, k)
      {
      }
      SamePixels(out, data);
    }
  }

  /** Thresholding twice is thresholding once. */
  lemma ThresholdIdempotent(data: Rgba64)
    ensures Threshold(Threshold(data)) == Threshold(data)
  {
    ThresholdFixes(data);
    ThresholdFixes(Threshold(data));
  }

  /** `drawTextOnCanvas(text)`: the painted layout, thresholded. */
  function DrawTextOnCanvas(text: string, measure: Measure, paint: Painter): (canvas: Rgba64)
    ensures Monochrome(canvas)
  {
    var canvas := Threshold(paint(Layout(text, measure)));
    ThresholdFixes(paint(Layout(text, measure)));
    canvas
  }

  const Empty := "No text input found!"
  const Sent := "Text processed and sent to Pixoo."
  const Refused := "Failed to send text to Pixoo. Status code: "
  const Failed := "Failed to process the text."

  /** `execute` for `/text`. Without a message nothing is sent. Otherwise a
      reset is POSTed first without waiting for it, the text is drawn, the
      base64 RGB data is stored as the last image, and it is POSTed as
      frame 0 of a one-frame animation whose id is the current time. The
      reply depends only on that second POST. */
  function Execute(message: Option<string>, measure: Measure, paint: Painter, now: int,
                   net: Network, lastImage: Option<string>): (e: Effect)
    ensures message.None? || message == Some("") ==> e == Effect(Empty, [], lastImage)
    ensures message.Some? && message.value != "" ==>
              var data := RgbBase64(DrawTextOnCanvas(message.value, measure, paint));
              && |e.posts| == 2
              && e.posts[0] == Post(ResetHttpGifId, net(0))
              && e.posts[1] == Post(SendHttpGif(1, Side, 0, now, 100, data), net(1))
              && e.lastImage == Some(data)
              && (e.reply == Sent <==> net(1) == Responded(200))
              && (e.reply == Failed <==> net(1).TransportError?)
              && (net(1).Responded? && net(1).status != 200 ==> e.reply == Refused + Decimal(net(1).status))
  {
    if message.None? || message.value == "" then Effect(Empty, [], lastImage)
    else
      var canvas := DrawTextOnCanvas(message.value, measure, paint);
      var data := RgbBase64(canvas);
      var reset := Post(ResetHttpGifId, net(0));
      var send := Post(SingleFrame(now, data), net(1));
      Effect(StatusReply(net(1), Sent, Refused, Failed), [reset, send], Some(data))
  }

  /** What the device receives for a message is 16384 base64 characters
      without padding, the same text that is stored as the last image, and
      every pixel it carries is pure black or pure white. */
  lemma SentPicture(message: string, measure: Measure, paint: Painter, now: int,
                    net: Network, lastImage: Option<string>)
    requires message != ""
    ensures var e := Execute(Some(message), measure, paint, now, net, lastImage);
            var data := e.posts[1].payload.picData;
            && e.lastImage == Some(data)
            && |data| == RgbaLen
            && Base64.Pad !in data
            && Base64.Decode(data).Some?
            && |Base64.Decode(data).value| == RgbLen
            && forall k :: 0 <= k < PixelCount ==>
                 RgbAt(Base64.Decode(data).value, k) in {Rgb(0, 0, 0), Rgb(255, 255, 255)}
  {
    var canvas := DrawTextOnCanvas(message, measure, paint);
    FrameText(canvas);
    FramePixels(canvas);
  }
}

=== FILE: wordwrap.dfy ===
/** The greedy line breaker of the `/text` command (`wrapText` inside
    `drawTextOnCanvas`, commands/utility/text.js). The text is cut at every
    space, and words are added to the current line for as long as the
    measured width of the line stays within the limit. The canvas's
    `measureText(..).width` is a parameter: any function from strings to
    widths. */
module WordWrap {

  /** `ctx.measureText(s).width` for the font in use. */
  type Measure = string -> real

  /** The first space of `s`. */
  function IndexOfSpace(s: string): (i: nat)
    requires ' ' in s
    ensures i < |s| && s[i] == ' '
    ensures forall t :: 0 <= t < i ==> s[t] != ' '
  {
    if s[0] == ' ' then 0 else 1 + IndexOfSpace(s[1..])
  }

  /** `Array.prototype.join(' ')`. */
  function Join(words: seq<string>): string {
    if |words| == 0 then ""
    else if |words| == 1 then words[0]
    else words[0] + " " + Join(words[1..])
  }

  /** `String.prototype.split(' ')`: the pieces between spaces, an empty
      piece for every leading, trailing or repeated space, and `[""]` for
      the empty string. Joining the pieces gives the text back. */
  function Split(s: string): (words: seq<string>)
    ensures |words| >= 1
    ensures forall k :: 0 <= k < |words| ==> ' ' !in words[k]
    ensures Join(words) == s
    decreases |s|
  {
    if ' ' !in s then [s]
    else
      var i := IndexOfSpace(s);
      var rest := Split(s[i + 1..]);
      var words := [s[..i]] + rest;
      assert words[1..] == rest;
      assert s == s[..i] + " " + s[i + 1..];
      words
  }

  /** The text before the first space of `s` (all of `s` when it has
      none). */
  function FirstWord(s: string): (w: string)
    ensures ' ' !in w
    ensures w <= s
    ensures |w| < |s| ==> s[|w|] == ' '
  {
    if s == [] || s[0] == ' ' then [] else [s[0]] + FirstWord(s[1..])
  }

  /** A word without spaces is its own first word. */
  lemma {:induction false} FirstWordOfWord(w: string)
    requires ' ' !in w
    ensures FirstWord(w) == w
  {
    if w != [] {
      FirstWordOfWord(w[1..]);
      assert w == [w[0]] + w[1..];
    }
  }

  /** The first space after a space-free prefix is the one right after it. */
  lemma IndexAfterWord(a: string, b: string)
    requires ' ' !in a
    ensures ' ' in a + " " + b
    ensures IndexOfSpace(a + " " + b) == |a|
  {
    var s := a + " " + b;
    assert s[|a|] == ' ';
    assert forall t :: 0 <= t < |a| ==> s[t] == a[t];
  }

  /** `a + " " + b` split apart again. */
  lemma CutAfterWord(a: string, b: string)
    ensures (a + " " + b)[..|a|] == a
    ensures (a + " " + b)[|a| + 1..] == b
  {
  }

  /** Splitting a word, a space and more text gives the word followed by
      the pieces of the text. */
  lemma SplitAfterWord(w: string, tail: string)
    requires ' ' !in w
    ensures Split(w + " " + tail) == [w] + Split(tail)
  {
    IndexAfterWord(w, tail);
    CutAfterWord(w, tail);
  }

  /** Splitting undoes joining when no word holds a space. */
  lemma {:induction false} SplitJoin(words: seq<string>)
    requires |words| >= 1
    requires forall k :: 0 <= k < |words| ==> ' ' !in words[k]
    ensures Split(Join(words)) == words
    decreases |words|
  {
    if |words| > 1 {
      var w, rest := words[0], words[1..];
      var tail := Join(rest);
      assert Join(words) == w + " " + tail;
      assert forall k :: 0 <= k < |rest| ==> rest[k] == words[k + 1];
      SplitJoin(rest);
      SplitAfterWord(w, tail);
      assert words == [w] + rest;
    }
  }

  /** The first word of a line that goes on after a space is the first word
      of what comes before the space. */
  lemma {:induction false} FirstWordOfLonger(a: string, b: string)
    ensures FirstWord(a + " " + b) == FirstWord(a)
  {
    var s := a + " " + b;
    if a != [] && a[0] != ' ' {
      FirstWordOfLonger(a[1..], b);
      assert s[1..] == a[1..] + " " + b;
    }
  }

  /** Joining two non-empty runs of words puts one space between them. */
  lemma {:induction false} JoinConcat(a: seq<string>, b: seq<string>)
    requires |a| > 0 && |b| > 0
    ensures Join(a + b) == Join(a) + " " + Join(b)
    decreases |a|
  {
    assert (a + b)[1..] == a[1..] + b;
    if |a| > 1 {
      JoinConcat(a[1..], b);
    }
  }

  /** The state of the `forEach` in `wrapText`: the finished lines and the
      line being built. */
  datatype State = State(lines: seq<string>, current: string)

  /** One iteration for `word`: try it on the current line (after a space
      unless the line is empty); if that is too wide, close the current
      line (when it is not empty) and start a new one with the word alone. */
  function Step(st: State, word: string, measure: Measure, maxWidth: real): (next: State)
    ensures st.lines <= next.lines && |next.lines| <= |st.lines| + 1
    ensures word != "" ==> next.current != ""
    ensures ' ' !in word && ' ' in next.current ==> measure(next.current) <= maxWidth
  {
    var test := if st.current != "" then st.current + " " + word else word;
    if measure(test) > maxWidth then
      State(if st.current != "" then st.lines + [st.current] else st.lines, word)
    else
      State(st.lines, test)
  }

  /** After the loop, a non-empty current line is closed. */
  function Flush(st: State): (lines: seq<string>)
    ensures st.lines <= lines && |lines| <= |st.lines| + 1
    ensures st.current != "" ==> st.current in lines
    ensures "" in lines ==> "" in st.lines
  {
    if st.current != "" then st.lines + [st.current] else st.lines
  }

  /** The loop over the remaining words, then the final flush. */
  function Wrap(words: seq<string>, measure: Measure, maxWidth: real, st: State): (lines: seq<string>)
    ensures st.lines <= lines
    ensures |lines| <= |st.lines| + |words| + 1
    decreases |words|
  {
    if |words| == 0 then Flush(st)
    else Wrap(words[1..], measure, maxWidth, Step(st, words[0], measure, maxWidth))
  }

  /** A line is acceptable when it is not empty and, if it holds more than
      one word, its width is within the limit. */
  predicate LineOk(line: string, measure: Measure, maxWidth: real) {
    line != "" && (' ' in line ==> measure(line) <= maxWidth)
  }

  /** No line could have taken the first word of the next one: a line
      ends only because adding that word overflowed. */
  predicate Greedy(lines: seq<string>, measure: Measure, maxWidth: real) {
    forall k :: 1 <= k < |lines| ==> measure(lines[k - 1] + " " + FirstWord(lines[k])) > maxWidth
  }

  /** `wrapText(text, maxWidth)`: no line is empty, and every line either
      fits or is a single word too wide to fit on any line. */
  function WrapText(text: string, measure: Measure, maxWidth: real): (lines: seq<string>)
    ensures forall line :: line in lines ==> LineOk(line, measure, maxWidth)
  {
    var words := Split(text);
    var start := State([], "");
    WrapKeepsLines(words, measure, maxWidth, start);
    Wrap(words, measure, maxWidth, start)
  }

  /** The loop keeps every finished line acceptable, given words without
      spaces and a current line that fits whenever it holds a space. */
  lemma {:induction false} WrapKeepsLines(words: seq<string>, measure: Measure, maxWidth: real, st: State)
    requires forall k :: 0 <= k < |words| ==> ' ' !in words[k]
    requires forall k :: 0 <= k < |st.lines| ==> LineOk(st.lines[k], measure, maxWidth)
    requires ' ' in st.current ==> measure(st.current) <= maxWidth
    ensures forall line :: line in Wrap(words, measure, maxWidth, st) ==> LineOk(line, measure, maxWidth)
    decreases |words|
  {
    if |words| == 0 {
      AppendOk(st.lines, st.current, measure, maxWidth);
    } else {
      var next := Step(st, words[0], measure, maxWidth);
      assert ' ' !in words[0];
      AppendOk(st.lines, st.current, measure, maxWidth);
      assert forall k :: 1 <= k < |words| ==> words[1..][k - 1] == words[k];
      WrapKeepsLines(words[1..], measure, maxWidth, next);
    }
  }

  /** Closing an acceptable current line keeps all lines acceptable. */
  lemma AppendOk(lines: seq<string>, current: string, measure: Measure, maxWidth: real)
    requires forall k :: 0 <= k < |lines| ==> LineOk(lines[k], measure, maxWidth)
    requires ' ' in current ==> measure(current) <= maxWidth
    ensures current != "" ==>
              var more := lines + [current];
              forall k :: 0 <= k < |more| ==> LineOk(more[k], measure, maxWidth)
  {
  }

  /** With single spaces between non-empty words, the loop only regroups
      words: joining its lines gives the finished lines, the current line
      and the remaining words, joined. */
  lemma {:induction false} WrapRegroups(words: seq<string>, measure: Measure, maxWidth: real, st: State)
    requires forall k :: 0 <= k < |words| ==> words[k] != ""
    requires st.current != ""
    ensures Join(Wrap(words, measure, maxWidth, st)) == Join(st.lines + [st.current] + words)
    decreases |words|
  {
    if |words| == 0 {
      assert st.lines + [st.current] + words == st.lines + [st.current];
    } else {
      var w, rest := words[0], words[1..];
      var next := Step(st, w, measure, maxWidth);
      assert forall k :: 0 <= k < |rest| ==> rest[k] == words[k + 1];
      WrapRegroups(rest, measure, maxWidth, next);
      StepRegroups(st, w, rest, measure, maxWidth);
      assert words == [w] + rest;
    }
  }

  /** One step of the loop, seen through `Join`: the current line and the
      remaining words are the same text before and after it. */
  lemma StepRegroups(st: State, w: string, rest: seq<string>, measure: Measure, maxWidth: real)
    requires st.current != ""
    ensures var next := Step(st, w, measure, maxWidth);
            Join(next.lines + [next.current] + rest) == Join(st.lines + [st.current] + ([w] + rest))
  {
    var L, c := st.lines, st.current;
    if measure(c + " " + w) > maxWidth {
      assert L + [c] + [w] + rest == L + [c] + ([w] + rest);
    } else {
      MergeWord(L, c, w, rest);
    }
  }

  /** Merging a word into the line before it does not change the joined
      text. */
  lemma MergeWord(L: seq<string>, c: string, w: string, rest: seq<string>)
    ensures Join(L + [c + " " + w] + rest) == Join(L + [c] + ([w] + rest))
  {
    var merged := [c + " " + w] + rest;
    var split := [c] + ([w] + rest);
    assert split[1..] == [w] + rest;
    assert ([w] + rest)[1..] == rest;
    assert merged[1..] == rest;
    if |rest| > 0 {
      assert Join(merged) == c + " " + w + " " + Join(rest);
      assert Join(split) == c + " " + (w + " " + Join(rest));
    }
    assert Join(merged) == Join(split);
    if |L| > 0 {
      JoinConcat(L, merged);
      JoinConcat(L, split);
    }
    assert L + [c + " " + w] + rest == L + merged;
    assert L + [c] + ([w] + rest) == L + split;
  }

  /** The first word always starts the first line, whatever its width. */
  lemma FirstStep(w: string, measure: Measure, maxWidth: real)
    ensures Step(State([], ""), w, measure, maxWidth) == State([], w)
  {
  }

  /** When the text has single spaces between non-empty words, wrapping
      loses and adds nothing: the lines joined with spaces are the text. */
  lemma WrapJoin(text: string, measure: Measure, maxWidth: real)
    requires forall k :: 0 <= k < |Split(text)| ==> Split(text)[k] != ""
    ensures Join(WrapText(text, measure, maxWidth)) == text
  {
    var words := Split(text);
    var rest := words[1..];
    FirstStep(words[0], measure, maxWidth);
    assert forall k :: 0 <= k < |rest| ==> rest[k] == words[k + 1];
    WrapRegroups(rest, measure, maxWidth, State([], words[0]));
    assert [] + [words[0]] + rest == words;
  }

  /** Closing a line whose first word would not have fitted on the last
      finished line keeps the lines greedy. */
  lemma AppendGreedy(lines: seq<string>, current: string, measure: Measure, maxWidth: real)
    requires Greedy(lines, measure, maxWidth)
    requires |lines| > 0 ==> measure(lines[|lines| - 1] + " " + FirstWord(current)) > maxWidth
    ensures Greedy(lines + [current], measure, maxWidth)
  {
    var more := lines + [current];
    assert forall k :: 0 <= k < |lines| ==> more[k] == lines[k];
  }

  /** The loop keeps the greedy property, given non-empty words without
      spaces and a current line whose first word would not have fitted on
      the last finished line. */
  lemma {:induction false} WrapKeepsGreedy(words: seq<string>, measure: Measure, maxWidth: real, st: State)
    requires forall k :: 0 <= k < |words| ==> words[k] != "" && ' ' !in words[k]
    requires st.current != ""
    requires Greedy(st.lines, measure, maxWidth)
    requires |st.lines| > 0 ==>
               measure(st.lines[|st.lines| - 1] + " " + FirstWord(st.current)) > maxWidth
    ensures Greedy(Wrap(words, measure, maxWidth, st), measure, maxWidth)
    decreases |words|
  {
    var L, c := st.lines, st.current;
    if |words| == 0 {
      AppendGreedy(L, c, measure, maxWidth);
    } else {
      var w, rest := words[0], words[1..];
      assert forall k :: 0 <= k < |rest| ==> rest[k] == words[k + 1];
      if measure(c + " " + w) > maxWidth {
        AppendGreedy(L, c, measure, maxWidth);
        FirstWordOfWord(w);
        WrapKeepsGreedy(rest, measure, maxWidth, State(L + [c], w));
      } else {
        FirstWordOfLonger(c, w);
        WrapKeepsGreedy(rest, measure, maxWidth, State(L, c + " " + w));
      }
    }
  }

  /** Text widths that never shrink when text is appended, as the advance
      widths of a font behave. */
  ghost predicate Monotone(measure: Measure) {
    forall a: string, b: string :: measure(a) <= measure(a + b)
  }

  /** The loop's greedy invariant: the finished lines are greedy, and the
      first word of the current line would not have fitted on the last of
      them. While the current line is empty this says the last line
      overflowed with the space alone. */
  predicate GreedySoFar(st: State, measure: Measure, maxWidth: real) {
    && Greedy(st.lines, measure, maxWidth)
    && (|st.lines| > 0 ==> measure(st.lines[|st.lines| - 1] + " " + FirstWord(st.current)) > maxWidth)
  }

  /** One step of the loop keeps the greedy invariant for any word without
      spaces, the empty word included, provided the last finished line is
      no narrower once the word follows its space. */
  lemma StepKeepsGreedy(st: State, w: string, measure: Measure, maxWidth: real)
    requires ' ' !in w
    requires GreedySoFar(st, measure, maxWidth)
    requires |st.lines| > 0 ==>
               measure(st.lines[|st.lines| - 1] + " ") <= measure(st.lines[|st.lines| - 1] + " " + w)
    ensures GreedySoFar(Step(st, w, measure, maxWidth), measure, maxWidth)
  {
    var L, c := st.lines, st.current;
    FirstWordOfWord(w);
    if c != "" {
      if measure(c + " " + w) > maxWidth {
        AppendGreedy(L, c, measure, maxWidth);
      } else {
        FirstWordOfLonger(c, w);
      }
    } else if |L| > 0 {
      var last := L[|L| - 1];
      assert last + " " + FirstWord(c) == last + " ";
    }
  }

  /** Widths that never shrink, at one pair of strings. */
  lemma Grows(measure: Measure, a: string, b: string)
    requires Monotone(measure)
    ensures measure(a) <= measure(a + b)
  {
  }

  /** With widths that never shrink, the loop and the final push keep the
      greedy property for any words without spaces, empty ones included:
      a line closed by an empty word already overflowed with the space
      alone, and the next line starts with the next non-empty word. */
  lemma {:induction false} WrapKeepsGreedyMonotone(words: seq<string>, measure: Measure, maxWidth: real, st: State)
    requires Monotone(measure)
    requires forall k :: 0 <= k < |words| ==> ' ' !in words[k]
    requires GreedySoFar(st, measure, maxWidth)
    ensures Greedy(Wrap(words, measure, maxWidth, st), measure, maxWidth)
    decreases |words|
  {
    if |words| == 0 {
      if st.current != "" {
        AppendGreedy(st.lines, st.current, measure, maxWidth);
      }
    } else {
      var rest := words[1..];
      assert forall k :: 0 <= k < |rest| ==> rest[k] == words[k + 1];
      if |st.lines| > 0 {
        Grows(measure, st.lines[|st.lines| - 1] + " ", words[0]);
      }
      StepKeepsGreedy(st, words[0], measure, maxWidth);
      WrapKeepsGreedyMonotone(rest, measure, maxWidth, Step(st, words[0], measure, maxWidth));
    }
  }

  /** Greedy breaking for every text, with widths that never shrink: each
      line break happens because the next line's first word would have
      made the line too wide. */
  lemma WrapIsGreedyMonotone(text: string, measure: Measure, maxWidth: real)
    requires Monotone(measure)
    ensures Greedy(WrapText(text, measure, maxWidth), measure, maxWidth)
  {
    WrapKeepsGreedyMonotone(Split(text), measure, maxWidth, State([], ""));
  }

  /** Greedy breaking: for text with single spaces between non-empty words,
      every line break happens because the next line's first word would
      have made the line too wide. */
  lemma WrapIsGreedy(text: string, measure: Measure, maxWidth: real)
    requires forall k :: 0 <= k < |Split(text)| ==> Split(text)[k] != ""
    ensures Greedy(WrapText(text, measure, maxWidth), measure, maxWidth)
  {
    var words := Split(text);
    var rest := words[1..];
    FirstStep(words[0], measure, maxWidth);
    assert forall k :: 0 <= k < |rest| ==> rest[k] == words[k + 1];
    WrapKeepsGreedy(rest, measure, maxWidth, State([], words[0]));
  }
}

=== FILE: wrappers.dfy ===
/** Failure-compatible wrappers used across the model: an optional value and
    a value-or-error result. */
module Wrappers {

  datatype Option<+T> = None | Some(value: T)

  datatype Result<+T, +E> = Ok(value: T) | Err(error: E)
}
